=== FILE: README.md ===
# Tuition academy site: record handling in Dafny

This project models the decision logic of a tuition-academy website built on
Next.js. The site has public pages for courses, testimonials and activities,
a two-step enrollment wizard, and an admin dashboard. Admins use the dashboard
to add, edit and delete courses, testimonials and activities, which live in a
hosted database. Activity cover images go to a blob bucket.

The database is a `map<Id, Row>` per table. The signed-in user is an
`Option<string>` caller id plus a role. Every answer from the outside world is a
parameter of the operation that receives it:

- a store error message or an empty `select`;
- a lookup miss;
- the clock reading and the fresh row id;
- the public URL of an upload;
- the user's answer to `confirm`.

Each module follows one source file:

| module | file |
|---|---|
| `Wrappers` | `Option` and `Result` |
| `Js` | the ECMAScript built-ins the code relies on: `trim`, `split`, `join`, `parseInt` (section 19.2.5 of ECMA-262), a restricted `Number`, `String(n)`, `repeat`, `length` in UTF-16 code units |
| `Store` | map tables, listing, and the `created_at` descending order |
| `HtmlNumber` | the browser's `<input type="number">`: the HTML Standard's valid floating-point number, its value, and constraint validation against `min` and the default step |
| `CourseAction` | `lib/actions/course.action.ts` |
| `AdminCourseForm` | `components/AdminCourseForm.tsx` |
| `TestimonialAction` | `lib/actions/testimonials.ts` |
| `TestimonialRoute` | `app/api/testimonials/route.ts` |
| `AdminTestimonial` | `components/AdminTestimonial.tsx` |
| `TestimonialsView` | `components/Testimonials.tsx` |
| `Enrollment` | `app/entrollment/page.tsx` |
| `Storage` | `lib/actions/storage.ts` |
| `ActivityAction` | `lib/actions/activity.ts` and `lib/actions/types.ts` |
| `AddActivityForm` | `components/AddActivityForm.tsx` |
| `ActivityFeed` | `components/ActivityFeed.tsx` |
| `CoursesPage` | `app/courses/page.tsx` |
| `Dashboard` | `app/admin/dashboard/page.tsx` |

Some behaviours of the code differ from what its inputs and messages
suggest; the model follows the code:

- **Activity duration.** The submit handler accepts any duration `parseInt`
  can read, including "-5" and "12abc". The browser's
  `type="number" min="1" required` input stops those, but it accepts any
  valid floating-point number whose value is a whole number of at least 1,
  exponent forms included. `parseInt` reads such text differently from the
  input: "0.5e1" (5) is stored as 0 and "1e1" (10) as 1 (see "Findings").
  `AddActivityForm.Submit` models both layers.
- **Course edits.** Editing a course calls `addCourse`, so an edit inserts a
  new row and the old one stays.
- **Course form errors.** The course form never shows the store's message.
  `addCourse` throws, and the form catches it and shows a fixed text.
- **Dashboard tab effect.** It loads courses or activities whatever the
  user's role is, and before the role is known.
- **Updating a missing testimonial.** The update fails with
  'No data returned after update', not with a not-found message.
- **Course listing errors.** The courses page never shows a store error's
  text. `getCourses` returns the message as a string, and the page reports
  it as an invalid data format.
- **Dashboard course loading.** The dashboard ignores a course-listing
  error silently.

## Model

| member | source | states |
|---|---|---|
| Js.Trim | lib/actions/course.action.ts:29 | trim gives one stretch of the input with only whitespace dropped before and after it, and leaves no whitespace at either end, so it removes exactly the leading and trailing whitespace; it keeps only characters of the input, is empty exactly for an all-whitespace input, and leaves an already trimmed string alone |
| Js.Split | lib/actions/course.action.ts:29 | split always yields at least one piece and no piece contains the separator |
| Js.JoinSplit | components/AdminCourseForm.tsx:34 | joining the pieces of a split with the same separator gives back the original text |
| Js.SplitJoin | components/AdminCourseForm.tsx:34 | splitting a join gives back the pieces whenever none of them holds the separator |
| Js.SplitAround | lib/actions/course.action.ts:29 | a separator between two texts splits them independently, keeping their order |
| Js.LastPieceIsSuffix | lib/actions/storage.ts:11 | the last piece of a split ends the text and is either the whole text or preceded by the separator, and is shorter than the text when a separator occurs |
| Js.LastPieceAfter | lib/actions/storage.ts:11 | only the text after the last separator determines the last piece |
| Js.ParseInt | components/AddActivityForm.tsx:72 | parseInt yields a number only when the input holds a decimal digit; otherwise NaN |
| Js.ParseIntSkipsWhiteSpace | components/AddActivityForm.tsx:72 | leading whitespace never changes what parseInt reads |
| Js.ParseIntAgreesWithNumber | components/AddActivityForm.tsx:72-99 | on an optional sign followed by decimal digits, parseInt and Number agree and give the denoted integer |
| Js.ParseIntOfIntString | components/AddActivityForm.tsx:99 | parseInt reads back the decimal rendering of any integer, whatever non-digit text follows it |
| Js.Number | components/AdminCourseForm.tsx:52 | Number of blank text is 0; otherwise it is an integer exactly when the trimmed text is an optional sign followed by decimal digits |
| Js.NumberOfIntString | components/AdminTestimonial.tsx:71 | Number reads back the decimal rendering of every integer |
| Js.NatString | lib/actions/storage.ts:10-12 | the rendering of a natural number is a non-empty digit string denoting that number |
| Js.Repeat | components/Testimonials.tsx:51 | repeat produces exactly n copies of the character |
| Js.Utf16Length | components/ActivityFeed.tsx:116 | the length in UTF-16 code units lies between the number of code points and twice that |
| Store.ListNewestFirst | lib/actions/testimonials.ts:19-22 | a listing holds every row of the table and only rows of the table, one entry per row, newest created first |
| Store.SortNewestFirst | lib/actions/activity.ts:33 | sorting by creation time descending gives an ordered permutation of its input |
| Store.InsertNewestFirst | lib/actions/activity.ts:33 | inserting into a newest-first list keeps it newest-first and adds exactly the one element |
| Store.SortedKeys | lib/actions/course.action.ts:47 | the listing of a table's ids enumerates every id exactly once |
| Store.Values | lib/actions/course.action.ts:47-51 | the listed rows are exactly the table's rows, one per id |
| CourseAction.CleanLines | lib/actions/course.action.ts:29 | cleaning never adds lines, every kept item is non-empty and trimmed, and no kept item gains a character no line had |
| CourseAction.NormaliseSyllabus | lib/actions/course.action.ts:29 | an absent syllabus gives no items; every stored item is non-empty, trimmed and on one line |
| CourseAction.CleanLinesAppend | lib/actions/course.action.ts:29 | cleaning distributes over concatenation, so non-blank lines keep their relative order |
| CourseAction.CleanLinesMembers | lib/actions/course.action.ts:29 | the trimmed text of every non-blank line is stored, and every stored item is the trimmed text of some line |
| CourseAction.CleanLinesSingle | lib/actions/course.action.ts:29 | a single line contributes its trimmed text, or nothing when it is blank |
| CourseAction.CleanLinesOfClean | lib/actions/course.action.ts:29 | items already clean pass through cleaning unchanged |
| CourseAction.SyllabusRoundTrip | components/AdminCourseForm.tsx:34 | clean items joined by newlines for the edit form normalise back to the same items |
| CourseAction.SyllabusIdempotent | lib/actions/course.action.ts:29 | normalising the prefill of a normalised syllabus changes nothing |
| CourseAction.SyllabusAround | lib/actions/course.action.ts:29 | two blocks of text separated by a newline normalise to the two normalisations in order |
| CourseAction.SyllabusOneLine | lib/actions/course.action.ts:29 | a one-line syllabus is its trimmed text, or empty when blank |
| CourseAction.StoredNumber | components/AdminCourseForm.tsx:52 | a project count reaches the store only when it is a number; NaN is written as null |
| CourseAction.CoursePayload | lib/actions/course.action.ts:26-30 | the inserted row carries the caller as author, the normalised syllabus, and every other input field unchanged |
| CourseAction.AddCourse | lib/actions/course.action.ts:17-43 | no caller id fails with 'Authentication required' and leaves the table unchanged; a store error fails with its message or 'Failed to create course'; otherwise exactly the new row is added and the first returned row is given back |
| CourseAction.GetCourses | lib/actions/course.action.ts:45-52 | a store error comes back as its message, not thrown; otherwise every row of the table, and only those, once each |
| CourseAction.DeleteCourse | lib/actions/course.action.ts:54-61 | with no caller, author or existence check the id is removed and every other row kept, giving true; a store error gives its message and changes nothing |
| AdminCourseForm.Heading | components/AdminCourseForm.tsx:23-75 | the form reads as an edit exactly when a course was passed in |
| AdminCourseForm.InitialForm | components/AdminCourseForm.tsx:27-36 | a new form is blank with type 'school'; an edit copies the course, joins the syllabus with newlines and shows a project count only when it is non-zero |
| AdminCourseForm.Change | components/AdminCourseForm.tsx:38-41 | a change event sets the named input and leaves every other input as it was |
| AdminCourseForm.ProjectsValue | components/AdminCourseForm.tsx:50-53 | an empty or zero project count becomes absent; any other becomes Number of its text |
| AdminCourseForm.ProjectsOfTypedNumber | components/AdminCourseForm.tsx:52 | a project count typed as a decimal integer is submitted as that integer |
| AdminCourseForm.SchoolIgnoresSkillsFields | components/AdminCourseForm.tsx:105-135 | a school course needs title, description and syllabus and is valid regardless of level and project count |
| AdminCourseForm.SkillsIgnoresGrades | components/AdminCourseForm.tsx:105-135 | a skills course is valid regardless of grades and needs a level and a non-negative project count |
| AdminCourseForm.FormInput | components/AdminCourseForm.tsx:50-53 | the submitted payload carries the syllabus text as typed and the converted project count |
| AdminCourseForm.Submit | components/AdminCourseForm.tsx:43-70 | an invalid form is never submitted; a failure shows the fixed retry message and changes nothing; success adds a row whatever the mode |
| AdminCourseForm.EditAddsNewCourse | components/AdminCourseForm.tsx:55 | saving an edit keeps the edited course and adds a second row under a new id |
| AdminCourseForm.PrefillRoundTrip | components/AdminCourseForm.tsx:34 | re-saving an unchanged edit stores the same syllabus items |
| TestimonialAction.FormRating | lib/actions/testimonials.ts:48 | an empty rating entry is absent; any other is read as a number |
| TestimonialAction.RatingOrNull | lib/actions/testimonials.ts:61 | a rating is stored only when it is a non-zero number |
| TestimonialAction.NewTestimonial | lib/actions/testimonials.ts:45-64 | the new row carries the caller as author, name and content as sent, and null for an empty grade or subjects or a zero or missing rating |
| TestimonialAction.StoredRatingOfDecimal | lib/actions/testimonials.ts:48-61 | a decimal rating v is stored as v, except 0 which is stored as null |
| TestimonialAction.AddTestimonial | lib/actions/testimonials.ts:32-80 | no caller rejects with 'Authentication required', then empty name or content with 'Name and content are required', both leaving the table unchanged; a store error rejects with its message or 'Failed to add testimonial' and inserts nothing; otherwise the new row is inserted, and success returns it while an empty select gives 'No data returned after insert' |
| TestimonialAction.DeleteTestimonial | lib/actions/testimonials.ts:82-116 | checks caller, then existence, then authorship, in that order, each failure leaving the table unchanged; a store fault is reported with its message or the fixed delete failure; success removes exactly that row |
| TestimonialAction.Patch | lib/actions/testimonials.ts:145-156 | an update replaces name and content, stores a non-empty rating as the number it denotes or null when it is not a number, and leaves the rating, grade or subjects as stored when its entry is empty |
| TestimonialAction.PatchIdempotent | lib/actions/testimonials.ts:145-156 | applying the same update twice is the same as applying it once |
| TestimonialAction.PatchKeepsZeroRating | lib/actions/testimonials.ts:148 | unlike an insert, an update with rating '0' stores 0 |
| TestimonialAction.UpdateTestimonial | lib/actions/testimonials.ts:118-173 | requires a caller but checks no ownership; a store error fails with its message or 'Failed to update testimonial' and a missing id with 'No data returned after update'; otherwise the row is replaced by its patch, every other row and the set of ids stay the same, and success returns the patched row |
| TestimonialAction.UpdateIgnoresAuthor | lib/actions/testimonials.ts:123-142 | any two signed-in callers get the same result from the same update |
| TestimonialAction.GetTestimonials | lib/actions/testimonials.ts:17-30 | the listing is every row, newest first, or the store's message or 'Failed to fetch testimonials' |
| TestimonialRoute.RatingOrNullJson | app/api/testimonials/route.ts:44 | a falsy JSON rating is stored as null, any other as given |
| TestimonialRoute.RouteRow | app/api/testimonials/route.ts:41-48 | the inserted row carries the caller as author and null for falsy rating, grade and subjects |
| TestimonialRoute.Post | app/api/testimonials/route.ts:19-79 | 401 before anything else, then 500 for an unreadable body, 400 for missing name or content, 500 with the message or 'Database operation failed' for a store error, which inserts nothing; otherwise the row is inserted, giving 201 with it, or 500 when the insert returns no row |
| TestimonialRoute.PostChecksCallerFirst | app/api/testimonials/route.ts:22-38 | without a caller the body is never looked at |
| TestimonialRoute.RouteAgreesWithAction | app/api/testimonials/route.ts:41-48 | the route and the server action build the same row from the same values |
| TestimonialRoute.Get | app/api/testimonials/route.ts:5-13 | 200 with every row newest first, or 500 with the error message |
| AdminTestimonial.Refetch | components/AdminTestimonial.tsx:29-44 | a failed refetch keeps the list; a successful one shows every row of the table and only those, newest first; the form is untouched |
| AdminTestimonial.Save | components/AdminTestimonial.tsx:75-81 | a truthy edit target calls update with it, otherwise add is called; an edit never adds or removes a row, an add introduces at most the fresh row, and every row other than the edit target keeps its value |
| AdminTestimonial.Submit | components/AdminTestimonial.tsx:57-97 | empty name or content makes no server call; success clears the form and edit target, refetches the list, which then holds the saved row, and toasts 'Testimonial updated successfully!' or 'Testimonial added successfully!'; failure keeps both and toasts the message or 'An error occurred' |
| AdminTestimonial.SavedRowListed | components/AdminTestimonial.tsx:75-85 | after a successful save the refetched list holds the added row or the patched edit target |
| AdminTestimonial.EditForm | components/AdminTestimonial.tsx:100-107 | editing copies the row, with rating 5 when it has none and empty grade and subjects when absent |
| AdminTestimonial.Edit | components/AdminTestimonial.tsx:100-109 | the edit target becomes the row's id and the list is untouched |
| AdminTestimonial.EditThenSaveKeepsRow | components/AdminTestimonial.tsx:100-109 | saving an edit unchanged gives back the same row when its rating is non-zero |
| AdminTestimonial.EditThenSaveRatesFive | components/AdminTestimonial.tsx:104 | saving an edit unchanged gives a row without rating the rating 5 |
| AdminTestimonial.BrowserRatingInRange | components/AdminTestimonial.tsx:180-189 | through the panel's rating input a sent rating is stored as a number from 1 to 5 |
| AdminTestimonial.Cancel | components/AdminTestimonial.tsx:223-226 | cancel empties the form and clears the edit target |
| AdminTestimonial.Delete | components/AdminTestimonial.tsx:112-131 | nothing happens without confirmation; a failed delete changes nothing; a success refetches the list, one row shorter, and toasts 'Testimonial deleted successfully!'; the form is never touched |
| TestimonialsView.RenderRating | components/Testimonials.tsx:49-52 | a falsy rating renders nothing; a rating from 1 to 5 renders five stars with the first r full and the rest empty; any other throws RangeError |
| TestimonialsView.StarsCountRating | components/Testimonials.tsx:51 | the number of full stars shown equals the rating |
| TestimonialsView.RatingBlockAsWritten | components/Testimonials.tsx:91-95 | the rating block as written: nothing for a missing rating, a bare "0" for rating 0, stars otherwise |
| TestimonialsView.ZeroRatingShowsStrayDigit | components/Testimonials.tsx:91 | a row updated with rating '0' shows a stray "0" on its card |
| TestimonialsView.RatingBlock | components/Testimonials.tsx:91-95 | the rating block appears exactly for a truthy rating and nothing else is shown |
| TestimonialsView.RatingBlockDiffersOnlyAtZero | components/Testimonials.tsx:91-95 | the corrected block agrees with the written one on every rating except 0 |
| Enrollment.Set | app/entrollment/page.tsx:32-35 | a change sets the named field and no other field, step or flag |
| Enrollment.HandleNext | app/entrollment/page.tsx:37-46 | step 1 advances only with name, email and phone filled, otherwise stays as it was |
| Enrollment.HandleSubmit | app/entrollment/page.tsx:48-61 | submission starts only with a course and, for the two school subjects, a grade |
| Enrollment.Apply | app/entrollment/page.tsx:32-117 | each event changes the state as its handler does: back decrements, the timer ends submission with success, enroll-another resets |
| Enrollment.EnabledPreservesGood | app/entrollment/page.tsx:37-117 | every event the view offers keeps the wizard on step 1 or 2 with consistent flags and listed choices |
| Enrollment.NextNeedsDetails | app/entrollment/page.tsx:39-45 | from step 1, Next reaches step 2 exactly when the three details are filled |
| Enrollment.SubmitRule | app/entrollment/page.tsx:50-54 | no course blocks submission; a course other than the two school subjects needs no grade |
| Enrollment.ScheduleNeverRequired | app/entrollment/page.tsx:50-54 | the schedule never affects whether submission starts |
| Enrollment.ChooseSetsOneField | app/entrollment/page.tsx:198-246 | choosing a course or a schedule sets only that field |
| Enrollment.EnrollAnotherResets | app/entrollment/page.tsx:106-117 | from the success view, enrolling another returns to the initial state |
| Storage.Extension | lib/actions/storage.ts:11 | the extension contains no dot, ends the name after its last dot, and is the whole name when it has no dot |
| Storage.ExtensionOfDottedName | lib/actions/storage.ts:11 | for a dotted name the extension is shorter than the name and follows a dot |
| Storage.ImagePath | lib/actions/storage.ts:10-13 | the path starts with the image folder; after it comes exactly one dot, with the timestamp's decimal digits before it and the original file's extension after it, so the stored path keeps that extension |
| Storage.ImagePathInjective | lib/actions/storage.ts:10-13 | two uploads with the same path have the same timestamp and extension |
| Storage.UploadRequest | lib/actions/storage.ts:20-25 | the upload goes to the derived path with the file's type and never overwrites |
| Storage.Put | lib/actions/storage.ts:20-25 | the bucket gains exactly the path on success and is unchanged on failure; an existing path fails without upsert |
| Storage.UploadImage | lib/actions/storage.ts:6-43 | an upload error throws its message or 'Failed to upload image' and stores nothing; a missing public URL throws 'Failed to get image URL'; otherwise the URL is returned |
| ActivityAction.CreateActivity | lib/actions/activity.ts:8-25 | the new row gets both timestamps and only it is added; a store error is thrown with its message and changes nothing |
| ActivityAction.ToActivity | lib/actions/activity.ts:38-43 | a listed activity copies created_at and updated_at into createdAt and updatedAt and keeps every other field |
| ActivityAction.MapToActivity | lib/actions/activity.ts:38-43 | the field mapping keeps the list's length and positions |
| ActivityAction.MapKeepsOrder | lib/actions/activity.ts:33-43 | the field mapping keeps the newest-first order |
| ActivityAction.GetActivities | lib/actions/activity.ts:27-44 | every row is listed, newest first, each under its own id; a store error is thrown with its message |
| ActivityAction.DeleteActivity | lib/actions/activity.ts:47-72 | a missing id fails with 'Activity not found'; a store error with its message or 'Failed to delete activity'; otherwise exactly that id is removed, with no caller check |
| AddActivityForm.ValidateImage | components/AddActivityForm.tsx:30-45 | only JPEG, PNG and WebP up to 5 MiB are accepted; the type is judged before the size |
| AddActivityForm.ImageSizeBoundary | components/AddActivityForm.tsx:32-42 | exactly 5 MiB is accepted and one byte more is refused |
| AddActivityForm.ImageChange | components/AddActivityForm.tsx:47-58 | a refused or missing file leaves the chosen image as it was |
| AddActivityForm.DurationInputValid | components/AddActivityForm.tsx:174-181 | the `required` duration input refuses empty text and any value with a leading '+' |
| AddActivityForm.BrowserAllows | components/AddActivityForm.tsx:134-181 | the browser blocks the form while the required title, description or duration is empty |
| AddActivityForm.CheckFields | components/AddActivityForm.tsx:64-75 | title, then description, then duration, stopping at the first failure; the duration passes exactly when parseInt reads a number |
| AddActivityForm.DurationCheckIsLenient | components/AddActivityForm.tsx:72 | the handler's duration check lets "-5" and "12abc" through and stops "abc" |
| AddActivityForm.IntegerDurationAgrees | components/AddActivityForm.tsx:72-99 | for a duration typed as a plain integer the input allows exactly the values of at least 1, parseInt reads the value the input holds, and only a blank title or description is left for the handler to refuse |
| AddActivityForm.ExponentDurationMisread | components/AddActivityForm.tsx:72-99 | the input accepts "0.5e1", "1e1" and ".5e1" (values 5, 10 and 5), which parseInt reads as 0, 1 and NaN |
| AddActivityForm.Send | components/AddActivityForm.tsx:78-101 | an upload failure throws 'Failed to upload image. Please try again.' and creates nothing; an insert error creates nothing; otherwise exactly one row is added, holding the form's title, description, category, the given duration, and the uploaded URL or '' |
| AddActivityForm.HandleSubmit | components/AddActivityForm.tsx:60-126 | a field error stops everything; an upload failure creates no activity; success adds exactly the new row, holding the form's fields, parseInt of the duration, and the uploaded URL or '' |
| AddActivityForm.Submit | components/AddActivityForm.tsx:131-190 | the browser blocks the form unless title and description are filled and the duration is a whole number of at least 1; a created activity holds parseInt of the duration |
| AddActivityForm.ExponentDurationStoredAsZero | components/AddActivityForm.tsx:99 | as written, a duration of "0.5e1", which the input holds as 5, creates an activity with duration 0 |
| AddActivityForm.IntendedSubmit | components/AddActivityForm.tsx:60-190 | as evidently intended, a created activity holds the number the duration input holds, so its duration is at least 1 |
| AddActivityForm.IntendedAgreesOnIntegers | components/AddActivityForm.tsx:72-99 | for a duration typed as a plain integer the intended submission and the written one agree |
| HtmlNumber.ParseFloat | components/AddActivityForm.tsx:174-181 | a valid floating-point number is non-empty and never starts with '+' |
| HtmlNumber.AllowsAtLeast | components/AddActivityForm.tsx:174-181 | an allowed value is non-empty, so `required` is met, and has no leading '+' |
| HtmlNumber.InputValue | components/AddActivityForm.tsx:174-181 | an input the browser allows holds a whole number no smaller than its minimum |
| HtmlNumber.ParseFloatOfInteger | components/AddActivityForm.tsx:174-181 | plain integer text is a valid floating-point number whose value is the integer it denotes |
| HtmlNumber.AllowsInteger | components/AddActivityForm.tsx:174-181 | for plain integer text the input allows exactly the values no smaller than its minimum, and holds that value |
| HtmlNumber.ExponentForms | components/AddActivityForm.tsx:174-181 | with minimum 1 the input allows "0.5e1", "1e1" and ".5e1", holding 5, 10 and 5 |
| AddActivityForm.AfterSubmit | components/AddActivityForm.tsx:106-113 | after success the form is blank with category 'workshop' and no image; otherwise unchanged |
| AddActivityForm.Cancel | components/AddActivityForm.tsx:209-219 | cancel gives the same blank form as a success and calls the success callback |
| ActivityFeed.Loaded | components/ActivityFeed.tsx:14-62 | a non-empty error message shows the banner; an empty one shows the empty grid; a listing shows the grid |
| ActivityFeed.Feed | components/ActivityFeed.tsx:14-29 | the feed shows every activity of the table and, ids being keys, only those, newest first; a store error shows its message, or the empty grid when the message is empty |
| ActivityFeed.Toggle | components/ActivityFeed.tsx:31-36 | toggling flips one card, counting an absent entry as collapsed, and leaves every other card as it was |
| ActivityFeed.ToggleTwice | components/ActivityFeed.tsx:31-36 | toggling a card twice shows every card as before |
| ActivityFeed.ToggleCommutes | components/ActivityFeed.tsx:31-36 | toggles of different cards commute |
| ActivityFeed.RenderCard | components/ActivityFeed.tsx:111-123 | the text is clamped unless expanded; the toggle appears exactly for descriptions over 150 UTF-16 units and reads 'Show less' or 'Read more' |
| ActivityFeed.ShortDescriptionNoToggle | components/ActivityFeed.tsx:116 | a description of at most 75 characters never gets a toggle |
| ActivityFeed.LongDescriptionToggles | components/ActivityFeed.tsx:116 | a description of over 150 characters always gets a toggle |
| ActivityFeed.ToggleFlipsCard | components/ActivityFeed.tsx:118-121 | clicking the toggle flips the clamping and the label |
| ActivityFeed.BadgeTone | components/ActivityFeed.tsx:96-101 | only the 'other' category gets the grey badge |
| ActivityFeed.BadgeToneInjective | components/ActivityFeed.tsx:96-101 | different categories get different badge colours |
| CoursesPage.Fetch | app/courses/page.tsx:25-44 | a listing is shown as loaded; any non-array result reads 'Failed to fetch courses: Invalid data format'; a thrown error shows its message or 'Failed to fetch courses' |
| CoursesPage.StoreErrorHidden | app/courses/page.tsx:30-34 | every store error looks the same on the page |
| CoursesPage.OfKind | app/courses/page.tsx:51-52 | a tab's list holds exactly the loaded courses of that type |
| CoursesPage.OfKindAppend | app/courses/page.tsx:51-52 | filtering keeps the loaded order |
| CoursesPage.TabsPartition | app/courses/page.tsx:51-52 | the school and skills lists together are the loaded list, each course on exactly one tab |
| CoursesPage.OfKindIdempotent | app/courses/page.tsx:51-52 | filtering a tab's list again changes nothing |
| CoursesPage.Displayed | app/courses/page.tsx:102 | the grid shows exactly the loaded courses of the active tab's type |
| CoursesPage.ToggleCourse | app/courses/page.tsx:46-48 | clicking the open card closes it, clicking another opens only that one |
| CoursesPage.ToggleCourseTwice | app/courses/page.tsx:46-48 | clicking the same card twice restores the state when no card or that card was open |
| CoursesPage.RenderCourse | app/courses/page.tsx:102-154 | a school card shows grades and a skills card shows level and a projects badge; a null grade or level reads "null" in the subtitle, as a template literal renders it; only the expanded card shows syllabus and duration |
| CoursesPage.OneCardOpen | app/courses/page.tsx:139 | at most one course shows its syllabus |
| CoursesPage.SavedSyllabusShown | app/courses/page.tsx:139-146 | a course saved through the admin form shows its cleaned syllabus lines when opened |
| Dashboard.Access | app/admin/dashboard/page.tsx:121-149 | the panel shows exactly for a loaded admin; the loading view exactly before the user is loaded |
| Dashboard.RedirectMatchesNotice | app/admin/dashboard/page.tsx:123-149 | the redirect fires exactly when the unauthorized notice renders |
| Dashboard.LoadCourses | app/admin/dashboard/page.tsx:54-67 | only an array replaces the course list; a store error is ignored; a thrown error sets 'Failed to load courses' |
| Dashboard.CourseStoreErrorIgnored | app/admin/dashboard/page.tsx:57-60 | a store error while listing courses leaves the page exactly as it was |
| Dashboard.LoadActivities | app/admin/dashboard/page.tsx:69-80 | a listing replaces the activities; a failure sets 'Failed to load activities' |
| Dashboard.TabEffect | app/admin/dashboard/page.tsx:112-118 | the courses tab loads courses, the activities tab loads activities, the testimonials tab loads neither, without looking at the role |
| Dashboard.Mount | app/admin/dashboard/page.tsx:41-118 | the first render loads the courses of the initial courses tab, before and whatever the role |
| Dashboard.SelectTab | app/admin/dashboard/page.tsx:112-204 | pressing the active tab changes nothing; another tab runs the effect for it; coming back to the courses tab with the course form shown remounts it on the edit target's fields |
| Dashboard.TabRoundTripRefreshesFields | app/admin/dashboard/page.tsx:183-204 | after editing one course and then another, a round trip through another tab shows the second course's fields |
| Dashboard.MountLoadsCourses | app/admin/dashboard/page.tsx:41-118 | the first render lists every course of the table |
| Dashboard.ReselectDoesNotReload | app/admin/dashboard/page.tsx:112-118 | pressing the courses tab again fetches nothing and shows no banner, while coming back from another tab reloads |
| Dashboard.DeleteCourseClick | app/admin/dashboard/page.tsx:82-97 | nothing happens without confirmation; a deletion reloads the list; an error shows its message or 'Failed to delete course' |
| Dashboard.DeletedCourseGone | app/admin/dashboard/page.tsx:82-97 | after a confirmed delete the list shows every other course and not the deleted one |
| Dashboard.DeleteActivityClick | app/admin/dashboard/page.tsx:99-110 | nothing happens without confirmation; a deletion reloads the list; any failure shows the fixed 'Failed to delete activity' |
| Dashboard.MissingActivitySameBanner | app/admin/dashboard/page.tsx:106-108 | deleting a missing activity looks the same as a store failure |
| Dashboard.OpenCourseForm | app/admin/dashboard/page.tsx:195-204 | showing the course form sets the edit target; a hidden form mounts with that course's fields, a shown one keeps the fields it has |
| Dashboard.OpenCourseFormIntended | components/AdminCourseForm.tsx:27-36 | a form remounted per course always shows that course's fields, blank ones for a new course |
| Dashboard.IntendedAgreesWhenHidden | app/admin/dashboard/page.tsx:195-204 | when the form was hidden, the written and the intended form show the same thing |
| Dashboard.AddCourseClick | app/admin/dashboard/page.tsx:188 | "+ Add Course" shows the "Add Course" form with no edit target, blank when the form was hidden and unchanged fields when it was shown |
| Dashboard.EditClick | app/admin/dashboard/page.tsx:216 | the edit button shows the "Edit Course" form on that course, prefilled with it only when the form was hidden |
| Dashboard.CourseFormSuccess | app/admin/dashboard/page.tsx:198-202 | the course form's success reloads, closes the form and clears the edit target |
| Dashboard.AddAfterEditIsBlank | app/admin/dashboard/page.tsx:188-202 | after an edit is saved, "+ Add Course" opens a form with blank fields |
| Dashboard.EditWhileOpenKeepsFields | app/admin/dashboard/page.tsx:188-216 | while the form shows one course, editing another or adding keeps the first course's fields under the new heading |
| Dashboard.AddActivityClick | app/admin/dashboard/page.tsx:238 | "+ Add Activity" opens the activity form and changes nothing else |
| Dashboard.ActivityFormSuccess | app/admin/dashboard/page.tsx:247-250 | the activity form's success reloads and closes the form |
| Dashboard.ActivityCancelAsWritten | components/AddActivityForm.tsx:209-219 | the activity form's Cancel calls the dashboard's success handler: it closes the form and reloads, raising the load banner when the fetch fails |
| Dashboard.CancelRaisesLoadBanner | components/AddActivityForm.tsx:18 | opening the activity form and cancelling it with a failing fetch leaves the dashboard with a banner it did not have |
| Dashboard.ActivityFormCancel | app/admin/dashboard/page.tsx:251 | the `onCancel` prop, which the form never reads, would close the form and change nothing else |
| Dashboard.AddThenCancel | app/admin/dashboard/page.tsx:238-251 | with the intended cancel, opening the activity form and cancelling it restores the dashboard |

## Left out

- The database, auth provider and blob bucket. Every reply they give is a parameter: a `Reply`, a fault message, a lookup miss or a public URL.
- Async timing, loading flags and spinners: `isLoading`, `isSubmitting`, the 1.5 s enrollment timer (modelled as a `TimerFired` event), `router.push` and `router.refresh`, `revalidatePath`, toasts beyond their text, `alert`, and `confirm`, which is a boolean parameter.
- Concurrent sessions and last-write-wins races. Each operation is one atomic step.
- FileReader previews and the uploaded bytes. Only the path, the content type and the outcome are modelled.
- Date formatting. Timestamps are opaque ordered integers, and the `Date.now` reading is a natural-number parameter.
- Js.Number: reads only blank text and an optional sign followed by decimal digits; fractions, exponents, hex and "Infinity" give NaN here, so ratings and project counts typed in those forms are left out.
- AdminTestimonial.BrowserRatingInRange: covers ratings typed as plain integers only; a rating input also accepts forms such as "5e0", which the restricted Js.Number does not read.
- HtmlNumber.ParseFloat: the contract states only that accepted text is non-empty without a leading '+'; its values are pinned for plain integers (`ParseFloatOfInteger`) and the exponent forms in `ExponentForms`, not for every valid floating-point number.
- HtmlNumber.AllowsAtLeast: likewise characterised exactly only for plain integers (`AllowsInteger`) and the forms in `ExponentForms`.
- HtmlNumber.InputValue: values are exact decimals; the browser's rounding to the nearest double and its overflow to an error for huge exponents are not modelled.
- Activity ids: the source's ids are uuid strings; the model keys activities by `Id` integers, since ids are only compared for equality.
- Js.ParseInt: the radix-16 path after "0x" is modelled, but values beyond the integers the site handles (precision loss above 2^53) are not.
- FormData entries that are missing, as opposed to empty, and JSON bodies whose fields are not strings or numbers. The route body's rating is an integer or absent.
- Column defaults and row-level policies. The table returns what was written, or no row.
- The testimonial `PUT`/`DELETE` routes under `app/api/testimonials/[id]/route.ts` are not part of this model.
- The order of `getCourses` rows: the store gives no order, so the model lists by ascending id and no contract depends on that order.
- The POST route's catch-all turns any exception into a 500 with its message. A body that does not parse, and a body that parses to `null`, where reading `name` throws a TypeError, both reach `TestimonialRoute.Post` as `Err(message)` and give that 500. Exceptions thrown by `auth()` or by creating the store client, before the caller check, are not modelled.
- Thrown network errors inside the page handlers, beyond the `Err` values the loaders take.
- Static and presentational files: the about page, home page, layout, nav bar, hero, counters, stats, contact form (it has no submit handler) and the map.
- The `priority` hint on the first three feed images, and the spinner icons.

## Findings

| source | as written | input that shows it | evidently intended | confidence | as-written member | corrected member |
|---|---|---|---|---|---|---|
| components/Testimonials.tsx:91 | the card renders `rating && <div>...</div>`; for a rating of 0 the expression is the number 0, which React renders as the text "0" (the admin list at components/AdminTestimonial.tsx:263 has the same pattern) | a testimonial row with rating 0, which `updateTestimonial` stores when the server action receives the FormData entry rating = "0" (the admin panel's own input, min 1, does not send it) | a falsy rating shows nothing above the quote | medium; not executed | TestimonialsView.RatingBlockAsWritten | TestimonialsView.RatingBlock |
| components/AddActivityForm.tsx:99 | the duration is sent as `parseInt(formData.duration)`, which stops at the first '.' or 'e', while the `type="number" min="1"` input accepts any valid floating-point number whose value is a whole number of at least 1 | a duration typed as "0.5e1": the input holds 5 and lets the form through, and the activity is stored with duration 0; "1e1" (10) is stored as 1 | the activity stores the number the input holds, always at least 1 | medium; not executed | AddActivityForm.ExponentDurationStoredAsZero | AddActivityForm.IntendedSubmit |
| components/AddActivityForm.tsx:18 | the form reads only `onSuccess`, and its Cancel button (lines 209-219) calls it; the dashboard's `onCancel` (app/admin/dashboard/page.tsx:251) is never read, so cancelling reloads the activities | "+ Add Activity", then Cancel while listing the activities fails: the banner 'Failed to load activities' appears | cancelling only closes the form | medium; not executed | Dashboard.CancelRaisesLoadBanner | Dashboard.ActivityFormCancel |
| app/admin/dashboard/page.tsx:195-204 | the course form is rendered without a `key` and takes its fields from `useState` initialisers (components/AdminCourseForm.tsx:27-36), which run only on mount, so while it is shown a new `course` changes only the heading; leaving the courses tab unmounts the form, so a tab round trip clears the stale fields | edit course A, then press edit on course B (or "+ Add Course") without saving: the heading changes, the fields still hold A, and saving writes A's values | the form shows the fields of the course being edited, blank ones for a new course | medium; not executed | Dashboard.EditWhileOpenKeepsFields | Dashboard.OpenCourseFormIntended |

=== FILE: activity_action.dfy ===
/**
 * The activity server actions over the `activities` table:
 * `createActivity`, the newest-first `getActivities` with its camel-case
 * timestamp copies, and `deleteActivity`.
 */
module ActivityAction {
  import opened Wrappers
  import opened Js
  import opened Store

  datatype Category = Workshop | Seminar | Competition | Other

  /** What `createActivity` receives: an activity without id and timestamps. */
  datatype ActivityDraft = ActivityDraft(
    title: string,
    description: string,
    category: Category,
    duration: int,
    imageUrl: string)

  /** A row of the `activities` table. */
  datatype ActivityRow = ActivityRow(
    id: Id,
    title: string,
    description: string,
    category: Category,
    duration: int,
    imageUrl: string,
    created_at: Timestamp,
    updated_at: Timestamp)

  /** An activity as the pages receive it. */
  datatype Activity = Activity(
    id: Id,
    title: string,
    description: string,
    category: Category,
    duration: int,
    imageUrl: string,
    createdAt: Timestamp,
    updatedAt: Timestamp)

  const NotFound := "Activity not found"
  const DeleteFailed := "Failed to delete activity"

  function RowCreated(r: ActivityRow): Timestamp {
    r.created_at
  }

  function ListedCreated(a: Activity): Timestamp {
    a.createdAt
  }

  /**
   * `createActivity`. `created` and `updated` are the two `new Date()`
   * readings taken one after the other; a store error is thrown with the
   * store's own message, and an insert that returns no row resolves to
   * nothing.
   */
  function CreateActivity(rows: map<Id, ActivityRow>, draft: ActivityDraft, id: Id,
                          created: Timestamp, updated: Timestamp, reply: Reply): (r: Step<ActivityRow, Option<ActivityRow>>)
    requires id !in rows && created <= updated
    ensures reply.Failed? ==> r == Step(rows, Err(reply.message))
    ensures !reply.Failed? ==> r.rows.Keys == rows.Keys + {id} && OthersUnchanged(rows, r.rows, id)
    ensures !reply.Failed? ==>
              var row := r.rows[id];
              && row.id == id && row.title == draft.title && row.description == draft.description
              && row.category == draft.category && row.duration == draft.duration
              && row.imageUrl == draft.imageUrl
              && row.created_at == created && row.updated_at == updated
              && row.created_at <= row.updated_at
    ensures r.result.Ok? ==> (r.result.value.Some? <==> reply.Done?)
    ensures r.result.Ok? && r.result.value.Some? ==> r.result.value.value == r.rows[id]
  {
    var row := ActivityRow(id, draft.title, draft.description, draft.category, draft.duration,
                           draft.imageUrl, created, updated);
    match reply
    case Failed(m) => Step(rows, Err(m))
    case NoRows => Step(rows[id := row], Ok(None))
    case Done => Step(rows[id := row], Ok(Some(row)))
  }

  /** The mapping of `getActivities`: the row's fields, and the two timestamps under camel-case names. */
  function ToActivity(r: ActivityRow): (a: Activity)
    ensures a.createdAt == r.created_at && a.updatedAt == r.updated_at
    ensures a.id == r.id && a.title == r.title && a.description == r.description
    ensures a.category == r.category && a.duration == r.duration && a.imageUrl == r.imageUrl
  {
    Activity(r.id, r.title, r.description, r.category, r.duration, r.imageUrl, r.created_at, r.updated_at)
  }

  function MapToActivity(rs: seq<ActivityRow>): (r: seq<Activity>)
    ensures |r| == |rs|
    ensures forall i :: 0 <= i < |rs| ==> r[i] == ToActivity(rs[i])
  {
    if |rs| == 0 then [] else [ToActivity(rs[0])] + MapToActivity(rs[1..])
  }

  /** The mapping keeps a newest-first order, since it copies `created_at`. */
  lemma MapKeepsOrder(rs: seq<ActivityRow>)
    requires NewestFirst(rs, RowCreated)
    ensures NewestFirst(MapToActivity(rs), ListedCreated)
  {
    var r := MapToActivity(rs);
    forall i, j | 0 <= i < j < |r|
      ensures ListedCreated(r[i]) >= ListedCreated(r[j])
    {
      assert RowCreated(rs[i]) >= RowCreated(rs[j]);
    }
  }

  /** `getActivities`: every row, newest first, mapped; or the store's message. */
  function GetActivities(rows: map<Id, ActivityRow>, fault: Option<string>): (r: Result<seq<Activity>, string>)
    ensures fault.Some? ==> r == Err(fault.value)
    ensures fault.None? ==> r.Ok? && |r.value| == |rows| && NewestFirst(r.value, ListedCreated)
    ensures fault.None? ==> forall k :: k in rows ==> ToActivity(rows[k]) in r.value
    ensures fault.None? && WellKeyed(rows) ==> forall i :: 0 <= i < |r.value| ==>
              r.value[i].id in rows && r.value[i] == ToActivity(rows[r.value[i].id])
  {
    match fault
    case Some(m) => Err(m)
    case None =>
      var sorted := ListNewestFirst(rows, RowCreated);
      MapKeepsOrder(sorted);
      var listed := MapToActivity(sorted);
      ListedFromRows(rows, sorted, listed);
      Ok(listed)
  }

  /** Every row sits under its own id. */
  predicate WellKeyed(rows: map<Id, ActivityRow>) {
    forall k :: k in rows ==> rows[k].id == k
  }

  lemma ListedFromRows(rows: map<Id, ActivityRow>, sorted: seq<ActivityRow>, listed: seq<Activity>)
    requires forall i :: 0 <= i < |sorted| ==> sorted[i] in rows.Values
    requires forall k :: k in rows ==> rows[k] in sorted
    requires |listed| == |sorted| && forall i :: 0 <= i < |sorted| ==> listed[i] == ToActivity(sorted[i])
    ensures forall k :: k in rows ==> ToActivity(rows[k]) in listed
    ensures WellKeyed(rows) ==> forall i :: 0 <= i < |listed| ==>
              listed[i].id in rows && listed[i] == ToActivity(rows[listed[i].id])
  {
    forall k | k in rows
      ensures ToActivity(rows[k]) in listed
    {
      var i :| 0 <= i < |sorted| && sorted[i] == rows[k];
      assert listed[i] == ToActivity(rows[k]);
    }
    if WellKeyed(rows) {
      forall i | 0 <= i < |listed|
        ensures listed[i].id in rows && listed[i] == ToActivity(rows[listed[i].id])
      {
        ValueHasKey(rows, sorted[i]);
        var k :| k in rows && rows[k] == sorted[i];
        assert rows[k].id == k;
      }
    }
  }

  /**
   * `deleteActivity`: no caller or author check, only that the row exists.
   * `lookup` is the error of the existence query, which the code reads as
   * "not found"; `fault` is the error of the delete itself.
   */
  function DeleteActivity(rows: map<Id, ActivityRow>, id: Id, lookup: Option<string>,
                          fault: Option<string>): (r: Step<ActivityRow, bool>)
    ensures r.result.Err? ==> r.rows == rows
    ensures id !in rows || lookup.Some? ==> r.result == Err(NotFound)
    ensures id in rows && lookup.None? && fault.Some? ==> r.result == Err(Or(fault.value, DeleteFailed))
    ensures r.result.Ok? <==> id in rows && lookup.None? && fault.None?
    ensures r.result.Ok? ==> r.result.value && r.rows.Keys == rows.Keys - {id}
    ensures OthersUnchanged(rows, r.rows, id)
  {
    if id !in rows || lookup.Some? then Step(rows, Err(NotFound))
    else match fault
      case Some(m) => Step(rows, Err(Or(m, DeleteFailed)))
      case None => Step(map k | k in rows && k != id :: rows[k], Ok(true))
  }
}

=== FILE: activity_feed.dfy ===
/**
 * The public activity feed: what the page shows after loading, and the
 * per-card "Read more" state kept in a record keyed by activity id.
 */
module ActivityFeed {
  import opened Wrappers
  import opened Js
  import opened Store
  import opened ActivityAction

  const LoadFailed := "Failed to load activities"
  const ReadMore := "Read more"
  const ShowLess := "Show less"
  /** Descriptions longer than this many UTF-16 code units get a toggle. */
  const ClampLength := 150

  /** The three renderings of the feed. */
  datatype FeedView = Spinner | ErrorBanner(message: string) | Grid(activities: seq<Activity>)

  /**
   * The view once `fetchActivities` has finished: a thrown error's message
   * becomes the error state, which only renders as a banner when it is a
   * non-empty string; otherwise the grid shows what was loaded, which is
   * still the initial empty list after a failure.
   */
  function Loaded(fetched: Result<seq<Activity>, string>): (v: FeedView)
    ensures v != Spinner
    ensures v.ErrorBanner? <==> fetched.Err? && fetched.error != ""
    ensures v.ErrorBanner? ==> v.message == fetched.error
    ensures fetched.Ok? ==> v == Grid(fetched.value)
    ensures fetched.Err? && fetched.error == "" ==> v == Grid([])
  {
    match fetched
    case Ok(list) => Grid(list)
    case Err(m) => if m != "" then ErrorBanner(m) else Grid([])
  }

  /** The feed after loading from the `activities` table. */
  function Feed(rows: map<Id, ActivityRow>, fault: Option<string>): (v: FeedView)
    ensures fault.None? ==> v.Grid? && |v.activities| == |rows|
                            && NewestFirst(v.activities, ListedCreated)
    ensures fault.None? ==> forall k :: k in rows ==> ToActivity(rows[k]) in v.activities
    ensures fault.None? && WellKeyed(rows) ==> forall i :: 0 <= i < |v.activities| ==>
              v.activities[i].id in rows && v.activities[i] == ToActivity(rows[v.activities[i].id])
    ensures fault.Some? && fault.value != "" ==> v == ErrorBanner(fault.value)
    ensures fault == Some("") ==> v == Grid([])
  {
    Loaded(GetActivities(rows, fault))
  }

  /** `expandedDescriptions[id]`: an id never toggled reads as collapsed. */
  predicate Expanded(m: map<Id, bool>, id: Id) {
    id in m && m[id]
  }

  /** `toggleDescription`: flips one card and leaves every other card as it was. */
  function Toggle(m: map<Id, bool>, id: Id): (r: map<Id, bool>)
    ensures Expanded(r, id) <==> !Expanded(m, id)
    ensures forall k :: k != id ==> (Expanded(r, k) <==> Expanded(m, k))
    ensures r.Keys == m.Keys + {id}
  {
    m[id := !Expanded(m, id)]
  }

  /** Toggling a card twice shows every card as before. */
  lemma ToggleTwice(m: map<Id, bool>, id: Id)
    ensures forall k :: Expanded(Toggle(Toggle(m, id), id), k) <==> Expanded(m, k)
  {
  }

  /** Toggles of different cards commute. */
  lemma ToggleCommutes(m: map<Id, bool>, a: Id, b: Id)
    requires a != b
    ensures Toggle(Toggle(m, a), b) == Toggle(Toggle(m, b), a)
  {
  }

  /** One rendered card: whether the text is clamped to three lines, the toggle's label if any, whether a cover image shows. */
  datatype Card = Card(clamped: bool, toggle: Option<string>, image: bool)

  function RenderCard(a: Activity, m: map<Id, bool>): (c: Card)
    ensures c.clamped <==> !Expanded(m, a.id)
    ensures c.toggle.Some? <==> Utf16Length(a.description) > ClampLength
    ensures c.toggle == Some(ShowLess) <==> c.toggle.Some? && !c.clamped
    ensures c.toggle == Some(ReadMore) <==> c.toggle.Some? && c.clamped
    ensures c.image <==> a.imageUrl != ""
  {
    var expanded := Expanded(m, a.id);
    Card(!expanded,
         if Utf16Length(a.description) > ClampLength
         then Some(if expanded then ShowLess else ReadMore) else None,
         a.imageUrl != "")
  }

  /** A description of at most 75 characters never gets a toggle, whatever its characters. */
  lemma ShortDescriptionNoToggle(a: Activity, m: map<Id, bool>)
    requires |a.description| <= ClampLength / 2
    ensures RenderCard(a, m).toggle == None
  {
  }

  /** A description of more than 150 characters always gets one. */
  lemma LongDescriptionToggles(a: Activity, m: map<Id, bool>)
    requires |a.description| > ClampLength
    ensures RenderCard(a, m).toggle.Some?
  {
  }

  /** Clicking a card's toggle flips its label and its clamping. */
  lemma ToggleFlipsCard(a: Activity, m: map<Id, bool>)
    requires RenderCard(a, m).toggle.Some?
    ensures RenderCard(a, Toggle(m, a.id)).clamped == !RenderCard(a, m).clamped
    ensures RenderCard(a, Toggle(m, a.id)).toggle.Some?
    ensures RenderCard(a, Toggle(m, a.id)).toggle != RenderCard(a, m).toggle
  {
  }

  /** The category badge's colour: one per known category and grey for the rest. */
  datatype Tone = Purple | Blue | Green | Grey

  function BadgeTone(c: Category): (t: Tone)
    ensures t == Grey <==> c == Other
  {
    match c
    case Workshop => Purple
    case Seminar => Blue
    case Competition => Green
    case Other => Grey
  }

  /** Different categories get different badges. */
  lemma BadgeToneInjective(c: Category, d: Category)
    requires BadgeTone(c) == BadgeTone(d)
    ensures c == d
  {
  }
}

=== FILE: add_activity_form.dfy ===
/**
 * The add-activity form: the image check on file selection, the ordered
 * field checks of `handleSubmit`, the upload-then-create sequence, and the
 * resets after success and on cancel. The browser's own constraint
 * validation of the inputs is modelled separately from the handler's
 * checks.
 */
module AddActivityForm {
  import opened Wrappers
  import opened Js
  import opened Store
  import opened ActivityAction
  import opened Storage
  import opened HtmlNumber

  /** The form's state; the chosen image is kept only once it passed the check. */
  datatype ActivityForm = ActivityForm(
    title: string,
    description: string,
    category: Category,
    duration: string,
    image: Option<ImageFile>)

  datatype ImageCheck = Accepted | WrongType | TooLarge

  datatype FieldCheck = FieldsOk | FieldError(message: string)

  /** The bucket and the table together. */
  datatype World = World(objects: set<string>, rows: map<Id, ActivityRow>)

  /** What the outside world answers during one submission. */
  datatype Env = Env(
    stamp: nat,                   // Date.now() inside uploadImage
    uploadFault: Option<string>,  // the bucket's own failure
    conflict: string,             // the bucket's message for an existing object
    publicUrl: Option<string>,
    id: Id,                       // the id the table assigns
    created: Timestamp,
    updated: Timestamp,
    insert: Reply)

  /** What a press of "Create Activity" leads to. */
  datatype Outcome =
    | Blocked                                 // the browser refused the form
    | Rejected(message: string)               // a field check failed; nothing was sent
    | Errored(world: World, message: string)  // the upload or the insert threw
    | Created(world: World)                   // the form resets and `onSuccess` is called

  const Blank := ActivityForm("", "", Workshop, "", None)
  const MaxImageBytes := 5 * 1024 * 1024
  const ImageTypes := ["image/jpeg", "image/png", "image/webp"]

  const TitleRequired := "Title is required"
  const DescriptionRequired := "Description is required"
  const InvalidDuration := "Please enter a valid duration"
  const UploadRetry := "Failed to upload image. Please try again."

  /** `validateImage`: the type is checked before the size; exactly 5 MiB is allowed. */
  function ValidateImage(f: ImageFile): (c: ImageCheck)
    ensures c == Accepted <==> f.mime in ImageTypes && f.size <= MaxImageBytes
    ensures c == WrongType <==> f.mime !in ImageTypes
    ensures c == TooLarge <==> f.mime in ImageTypes && f.size > MaxImageBytes
  {
    if f.mime !in ImageTypes then WrongType
    else if f.size > MaxImageBytes then TooLarge
    else Accepted
  }

  /** The toast shown for a refused image. */
  function ImageMessage(c: ImageCheck): string
    requires c != Accepted
  {
    if c == WrongType then "Only JPG, PNG, or WEBP images are allowed" else "Image must be smaller than 5MB"
  }

  /** The size boundary: 5 MiB passes, one byte more does not. */
  lemma ImageSizeBoundary(mime: string, name: string)
    requires mime in ImageTypes
    ensures ValidateImage(ImageFile(name, mime, 5242880)) == Accepted
    ensures ValidateImage(ImageFile(name, mime, 5242881)) == TooLarge
  {
  }

  /** `handleImageChange`: no file or a refused file leaves the form as it was. */
  function ImageChange(form: ActivityForm, chosen: Option<ImageFile>): (r: ActivityForm)
    ensures chosen.None? ==> r == form
    ensures chosen.Some? && ValidateImage(chosen.value) != Accepted ==> r == form
    ensures chosen.Some? && ValidateImage(chosen.value) == Accepted ==> r == form.(image := chosen)
    ensures r.image.Some? ==> ValidateImage(r.image.value) == Accepted || r.image == form.image
  {
    match chosen
    case None => form
    case Some(f) => if ValidateImage(f) == Accepted then form.(image := chosen) else form
  }

  /**
   * The checks at the top of `handleSubmit`, in order: a title that is not
   * only whitespace, then such a description, then a duration from which
   * `parseInt` reads a number. The first failure is reported.
   */
  function CheckFields(form: ActivityForm): (c: FieldCheck)
    ensures c == FieldError(TitleRequired) <==> AllWhiteSpace(form.title)
    ensures c == FieldError(DescriptionRequired) <==>
              !AllWhiteSpace(form.title) && AllWhiteSpace(form.description)
    ensures c == FieldError(InvalidDuration) <==>
              !AllWhiteSpace(form.title) && !AllWhiteSpace(form.description) && ParseInt(form.duration).NaN?
    ensures c == FieldsOk <==>
              !AllWhiteSpace(form.title) && !AllWhiteSpace(form.description) && ParseInt(form.duration).Int?
  {
    if Trim(form.title) == "" then FieldError(TitleRequired)
    else if Trim(form.description) == "" then FieldError(DescriptionRequired)
    else if form.duration == "" || ParseInt(form.duration).NaN? then FieldError(InvalidDuration)
    else FieldsOk
  }

  /** The handler's duration check lets a negative number and trailing junk through. */
  lemma DurationCheckIsLenient()
    ensures ParseInt("-5") == Int(-5)
    ensures ParseInt("12abc") == Int(12)
    ensures ParseInt("abc").NaN?
  {
    assert IntString(-5) + "" == "-5";
    ParseIntOfIntString(-5, "");
    assert IntString(12) + "abc" == "12abc";
    ParseIntOfIntString(12, "abc");
    assert ReadMagnitude("abc").None? by {
      assert DigitPrefix("abc", 10) == "";
    }
    NotWhiteSpaceAbc();
  }

  lemma NotWhiteSpaceAbc()
    ensures ParseInt("abc") == ParseSigned("abc")
  {
    assert !IsWhiteSpace("abc"[0]);
    assert LeadingSpace("abc") == 0;
  }

  /**
   * What the `type="number" min="1" required` input lets through: a valid
   * floating-point number whose value is a whole number of at least 1.
   * Exponent and fraction forms such as "0.5e1" and "1e1" are among them.
   */
  predicate DurationInputValid(d: string): (b: bool)
    ensures d == "" ==> !b
    ensures b ==> d[0] != '+'
  {
    AllowsAtLeast(d, 1)
  }

  /** The browser's constraint validation: `required` title and description, and the duration input. */
  predicate BrowserAllows(form: ActivityForm): (b: bool)
    ensures form.title == "" || form.description == "" || form.duration == "" ==> !b
  {
    form.title != "" && form.description != "" && DurationInputValid(form.duration)
  }

  /**
   * For a duration typed as a plain integer the browser's rule is "at
   * least 1", `parseInt` reads the value the input holds, and only a
   * whitespace-only title or description is left for the handler to refuse.
   */
  lemma IntegerDurationAgrees(form: ActivityForm)
    requires IsSignedDecimal(form.duration) && form.duration[0] != '+'
    ensures DurationInputValid(form.duration) <==> SignedValue(form.duration) >= 1
    ensures DurationInputValid(form.duration) ==> ParseInt(form.duration) == Int(InputValue(form.duration, 1))
    ensures BrowserAllows(form) && !AllWhiteSpace(form.title) && !AllWhiteSpace(form.description) ==>
              CheckFields(form) == FieldsOk
  {
    AllowsInteger(form.duration, 1);
    ParseIntAgreesWithNumber(form.duration);
  }

  /**
   * `parseInt` misreads durations the input accepts: "0.5e1" holds 5 but
   * reads as 0, "1e1" holds 10 but reads as 1, and ".5e1" holds 5 but
   * reads as NaN, so the handler refuses it as invalid.
   */
  lemma ExponentDurationMisread()
    ensures DurationInputValid("0.5e1") && InputValue("0.5e1", 1) == 5 && ParseInt("0.5e1") == Int(0)
    ensures DurationInputValid("1e1") && InputValue("1e1", 1) == 10 && ParseInt("1e1") == Int(1)
    ensures DurationInputValid(".5e1") && InputValue(".5e1", 1) == 5 && ParseInt(".5e1").NaN?
  {
    ExponentForms();
    ParseIntStopsAtDot();
    ParseIntStopsAtE();
    ParseIntOfLeadingDot();
  }

  lemma ParseIntStopsAtDot()
    ensures ParseInt("0.5e1") == Int(0)
  {
    assert IntString(0) + ".5e1" == "0.5e1";
    ParseIntOfIntString(0, ".5e1");
  }

  lemma ParseIntStopsAtE()
    ensures ParseInt("1e1") == Int(1)
  {
    assert IntString(1) + "e1" == "1e1";
    ParseIntOfIntString(1, "e1");
  }

  lemma ParseIntOfLeadingDot()
    ensures ParseInt(".5e1").NaN?
  {
    assert ReadMagnitude(".5e1").None? by {
      assert DigitPrefix(".5e1", 10) == "";
    }
    assert !IsWhiteSpace('.');
    assert LeadingSpace(".5e1") == 0;
  }

  /**
   * The upload, when an image was chosen, then `createActivity` with the
   * given duration: what `handleSubmit` does once the fields passed.
   */
  function Send(form: ActivityForm, w: World, env: Env, duration: int): (o: Outcome)
    requires env.id !in w.rows && env.created <= env.updated
    ensures o.Errored? || o.Created?
    ensures o.Errored? ==> o.world.rows == w.rows
    ensures form.image.Some? && (UploadImage(w.objects, form.image.value, env.stamp, env.uploadFault,
                                             env.conflict, env.publicUrl).1.Err?) ==>
              o.Errored? && o.message == UploadRetry
    ensures o.Created? <==>
              && !env.insert.Failed?
              && (form.image.None? || UploadImage(w.objects, form.image.value, env.stamp, env.uploadFault,
                                                  env.conflict, env.publicUrl).1.Ok?)
    ensures o.Created? ==>
              && env.id in o.world.rows
              && o.world.rows.Keys == w.rows.Keys + {env.id}
              && OthersUnchanged(w.rows, o.world.rows, env.id)
              && var row := o.world.rows[env.id];
              && row.title == form.title && row.description == form.description
              && row.category == form.category && row.duration == duration
              && (row.imageUrl == "" <==> form.image.None?)
              && (form.image.Some? ==> row.imageUrl == env.publicUrl.value)
    ensures form.image.None? ==> o.world.objects == w.objects
  {
    var upload: (set<string>, Result<string, string>) :=
      match form.image
      case None => (w.objects, Ok(""))
      case Some(f) => UploadImage(w.objects, f, env.stamp, env.uploadFault, env.conflict, env.publicUrl);
    match upload.1
    case Err(_) => Errored(World(upload.0, w.rows), UploadRetry)
    case Ok(url) =>
      var draft := ActivityDraft(form.title, form.description, form.category, duration, url);
      var step := CreateActivity(w.rows, draft, env.id, env.created, env.updated, env.insert);
      match step.result
      case Err(m) => Errored(World(upload.0, w.rows), m)
      case Ok(_) => Created(World(upload.0, step.rows))
  }

  /**
   * `handleSubmit` once the browser let the form through: the checks, then
   * the upload when an image was chosen, then `createActivity` with
   * `parseInt` of the duration and the uploaded URL or ''.
   */
  function HandleSubmit(form: ActivityForm, w: World, env: Env): (o: Outcome)
    requires env.id !in w.rows && env.created <= env.updated
    ensures CheckFields(form).FieldError? ==> o == Rejected(CheckFields(form).message)
    ensures !o.Blocked?
    ensures o.Errored? || o.Created? ==> CheckFields(form) == FieldsOk
    ensures o.Errored? && o.message == UploadRetry ==> o.world.rows == w.rows
    ensures form.image.Some? && (UploadImage(w.objects, form.image.value, env.stamp, env.uploadFault,
                                             env.conflict, env.publicUrl).1.Err?) ==>
              o.Rejected? || (o.Errored? && o.message == UploadRetry && o.world.rows == w.rows)
    ensures o.Errored? ==> o.world.rows == w.rows
    ensures o.Created? <==>
              && CheckFields(form) == FieldsOk && !env.insert.Failed?
              && (form.image.None? || UploadImage(w.objects, form.image.value, env.stamp, env.uploadFault,
                                                  env.conflict, env.publicUrl).1.Ok?)
    ensures o.Created? ==>
              && env.id in o.world.rows
              && o.world.rows.Keys == w.rows.Keys + {env.id}
              && OthersUnchanged(w.rows, o.world.rows, env.id)
              && var row := o.world.rows[env.id];
              && row.title == form.title && row.description == form.description
              && row.category == form.category
              && Int(row.duration) == ParseInt(form.duration)
              && (row.imageUrl == "" <==> form.image.None?)
              && (form.image.Some? ==> row.imageUrl == env.publicUrl.value)
    ensures form.image.None? && (o.Errored? || o.Created?) ==> o.world.objects == w.objects
  {
    match CheckFields(form)
    case FieldError(m) => Rejected(m)
    case FieldsOk => Send(form, w, env, ParseInt(form.duration).value)
  }

  /**
   * Pressing "Create Activity": the browser's validation, then the handler.
   * A created activity holds `parseInt` of the duration, which is not the
   * number the input holds when the duration was typed with a fraction or
   * an exponent (see `ExponentDurationStoredAsZero`).
   */
  function Submit(form: ActivityForm, w: World, env: Env): (o: Outcome)
    requires env.id !in w.rows && env.created <= env.updated
    ensures !BrowserAllows(form) ==> o == Blocked
    ensures BrowserAllows(form) ==> o == HandleSubmit(form, w, env)
    ensures o.Created? ==> DurationInputValid(form.duration) && Int(o.world.rows[env.id].duration) == ParseInt(form.duration)
  {
    if !BrowserAllows(form) then Blocked
    else HandleSubmit(form, w, env)
  }

  /**
   * As written, a duration the browser accepts as 5 is stored as 0: the
   * created activity has a duration below the input's minimum of 1.
   */
  lemma ExponentDurationStoredAsZero(form: ActivityForm, w: World, env: Env)
    requires form.duration == "0.5e1" && form.image.None?
    requires !AllWhiteSpace(form.title) && !AllWhiteSpace(form.description)
    requires env.id !in w.rows && env.created <= env.updated && !env.insert.Failed?
    ensures BrowserAllows(form) && InputValue(form.duration, 1) == 5
    ensures Submit(form, w, env).Created?
    ensures Submit(form, w, env).world.rows[env.id].duration == 0
  {
    ExponentDurationMisread();
    assert form.title != "" && form.description != "";
  }

  /**
   * The submission as evidently intended: the activity stores the number
   * the duration input holds (what `Number(formData.duration)` or the
   * input's `valueAsNumber` gives), so every created activity lasts at
   * least one minute.
   */
  function IntendedSubmit(form: ActivityForm, w: World, env: Env): (o: Outcome)
    requires env.id !in w.rows && env.created <= env.updated
    ensures !BrowserAllows(form) ==> o == Blocked
    ensures BrowserAllows(form) && AllWhiteSpace(form.title) ==> o == Rejected(TitleRequired)
    ensures BrowserAllows(form) && !AllWhiteSpace(form.title) && AllWhiteSpace(form.description) ==>
              o == Rejected(DescriptionRequired)
    ensures o.Created? ==>
              && BrowserAllows(form) && env.id in o.world.rows
              && o.world.rows[env.id].duration == InputValue(form.duration, 1)
              && o.world.rows[env.id].duration >= 1
    ensures BrowserAllows(form) && !AllWhiteSpace(form.title) && !AllWhiteSpace(form.description) ==>
              o == Send(form, w, env, InputValue(form.duration, 1))
  {
    if !BrowserAllows(form) then Blocked
    else if Trim(form.title) == "" then Rejected(TitleRequired)
    else if Trim(form.description) == "" then Rejected(DescriptionRequired)
    else Send(form, w, env, InputValue(form.duration, 1))
  }

  /** On durations typed as plain integers, the code as written already does what was intended. */
  lemma IntendedAgreesOnIntegers(form: ActivityForm, w: World, env: Env)
    requires IsSignedDecimal(form.duration) && form.duration[0] != '+'
    requires env.id !in w.rows && env.created <= env.updated
    ensures IntendedSubmit(form, w, env) == Submit(form, w, env)
  {
    IntegerDurationAgrees(form);
    if BrowserAllows(form) && !AllWhiteSpace(form.title) && !AllWhiteSpace(form.description) {
      assert ParseInt(form.duration).value == InputValue(form.duration, 1);
    }
  }

  /** The form after a submission: blank after success, untouched otherwise. */
  function AfterSubmit(form: ActivityForm, o: Outcome): (r: ActivityForm)
    ensures o.Created? ==> r == Blank && r.category == Workshop && r.image.None?
    ensures !o.Created? ==> r == form
  {
    if o.Created? then Blank else form
  }

  /** Cancel: the form resets, and `onSuccess` is called just as after a creation. */
  function Cancel(form: ActivityForm): (r: (ActivityForm, bool))
    ensures r.0 == AfterSubmit(form, Created(World({}, map[])))
    ensures r.1
  {
    (Blank, true)
  }
}

=== FILE: admin_course_form.dfy ===
/**
 * The admin course form: the state it starts from (blank, or prefilled
 * from the course being edited), field edits, the browser's `required`
 * rules, and submission, which always goes through `addCourse`.
 */
module AdminCourseForm {
  import opened Wrappers
  import opened Js
  import opened Store
  import opened CourseAction

  /** The projects input: text the admin typed, or the number copied from a course. */
  datatype ProjectsField = Typed(text: string) | Loaded(count: int)

  /** The form's controlled state. */
  datatype CourseForm = CourseForm(
    title: string,
    kind: CourseType,
    grades: string,
    level: string,
    description: string,
    duration: string,
    syllabus: string,
    projects: ProjectsField)

  /** The named inputs of the form. */
  datatype Field = Title | Kind | Grades | Level | Description | Duration | Syllabus | Projects

  /** What submitting the form leads to. */
  datatype Outcome =
    | Blocked                                            // the browser refused the form
    | ShowsError(rows: map<Id, Course>, message: string) // `addCourse` threw
    | Saved(rows: map<Id, Course>)                   // `onSuccess` is called

  const SubmitFailure := "Failed to submit the form. Please try again."

  function KindText(k: CourseType): string {
    if k == School then "school" else "skills"
  }

  /** The heading of the form; the edit wording exactly when a course was passed in. */
  function Heading(course: Option<Course>): (h: string)
    ensures h == "Edit Course" <==> course.Some?
    ensures h == "Add Course" <==> course.None?
  {
    if course.Some? then "Edit Course" else "Add Course"
  }

  /** The value an input shows. */
  function FieldText(f: CourseForm, field: Field): string {
    match field
    case Title => f.title
    case Kind => KindText(f.kind)
    case Grades => f.grades
    case Level => f.level
    case Description => f.description
    case Duration => f.duration
    case Syllabus => f.syllabus
    case Projects => (match f.projects case Typed(t) => t case Loaded(n) => IntString(n))
  }

  /** The initial state: blank fields and 'school', or the course's values with the syllabus joined by newlines. */
  function InitialForm(course: Option<Course>): (f: CourseForm)
    ensures course.None? ==> f == CourseForm("", School, "", "", "", "", "", Typed(""))
    ensures course.Some? ==>
              && f.title == course.value.title && f.kind == course.value.kind
              && f.description == course.value.description && f.duration == course.value.duration
              && f.grades == course.value.grades.GetOr("") && f.level == course.value.level.GetOr("")
              && f.syllabus == Join(course.value.syllabus, '\n')
    ensures course.Some? && course.value.projects.Some? && course.value.projects.value != 0 ==>
              f.projects == Loaded(course.value.projects.value)
    ensures (course.None? || course.value.projects.None? || course.value.projects == Some(0)) ==>
              f.projects == Typed("")
  {
    match course
    case None => CourseForm("", School, "", "", "", "", "", Typed(""))
    case Some(c) =>
      CourseForm(c.title, c.kind, c.grades.GetOr(""), c.level.GetOr(""), c.description, c.duration,
                 Join(c.syllabus, '\n'),
                 if c.projects.Some? && c.projects.value != 0 then Loaded(c.projects.value) else Typed(""))
  }

  /** `handleChange`: the named input takes the new value and no other input changes. */
  function Change(f: CourseForm, field: Field, value: string): (r: CourseForm)
    requires field == Kind ==> value == "school" || value == "skills"
    ensures FieldText(r, field) == value
    ensures forall g :: g != field ==> FieldText(r, g) == FieldText(f, g)
  {
    match field
    case Title => f.(title := value)
    case Kind => f.(kind := if value == "skills" then Skills else School)
    case Grades => f.(grades := value)
    case Level => f.(level := value)
    case Description => f.(description := value)
    case Duration => f.(duration := value)
    case Syllabus => f.(syllabus := value)
    case Projects => f.(projects := Typed(value))
  }

  /** The projects conversion of `handleSubmit`: empty means absent, otherwise `Number(projects)`. */
  function ProjectsValue(p: ProjectsField): (n: Option<Num>)
    ensures n.None? <==> p == Typed("") || p == Loaded(0)
    ensures p.Typed? && p.text != "" ==> n == Some(Number(p.text))
    ensures p.Loaded? && p.count != 0 ==> n == Some(Int(p.count))
  {
    match p
    case Typed(t) => if t != "" then Some(Number(t)) else None
    case Loaded(c) => if c != 0 then Some(Int(c)) else None
  }

  /** Typing a decimal integer into the projects input submits that number. */
  lemma ProjectsOfTypedNumber(n: int)
    ensures ProjectsValue(Typed(IntString(n))) == Some(Int(n))
  {
    NumberOfIntString(n);
  }

  /** The projects input satisfies `type="number" min="0" required`. */
  predicate ProjectsFilled(p: ProjectsField) {
    match p
    case Typed(t) => Number(t).Int? && Number(t).value >= 0 && Trim(t) != ""
    case Loaded(c) => c >= 0
  }

  /**
   * The browser's `required` rules: title, description, syllabus and
   * duration always; grades for a school course; level and projects for a
   * skills course (the inputs of the other type are not rendered).
   */
  predicate FormValid(f: CourseForm) {
    && f.title != "" && f.description != "" && f.syllabus != "" && f.duration != ""
    && (f.kind == School ==> f.grades != "")
    && (f.kind == Skills ==> f.level != "" && ProjectsFilled(f.projects))
  }

  /** A school form is valid regardless of the hidden skills inputs. */
  lemma SchoolIgnoresSkillsFields(f: CourseForm, level: string, projects: ProjectsField)
    requires f.kind == School
    ensures FormValid(f) <==> FormValid(f.(level := level, projects := projects))
    ensures FormValid(f) <==> f.title != "" && f.description != "" && f.syllabus != ""
                              && f.duration != "" && f.grades != ""
  {
  }

  /** A skills form is valid regardless of the hidden grades input. */
  lemma SkillsIgnoresGrades(f: CourseForm, grades: string)
    requires f.kind == Skills
    ensures FormValid(f) <==> FormValid(f.(grades := grades))
    ensures FormValid(f) ==> f.level != "" && ProjectsFilled(f.projects)
  {
  }

  /** What `handleSubmit` hands to `addCourse`. */
  function FormInput(f: CourseForm): (input: CourseInput)
    ensures input.syllabus == Some(f.syllabus)
    ensures input.projects == ProjectsValue(f.projects)
  {
    CourseInput(f.title, f.kind, f.grades, f.level, f.description, f.duration,
                Some(f.syllabus), ProjectsValue(f.projects))
  }

  /**
   * `handleSubmit`. In add and edit mode alike the form inserts a new
   * course under the fresh `id`; a thrown error becomes the fixed message.
   */
  function Submit(f: CourseForm, rows: map<Id, Course>, caller: Option<string>,
                  id: Id, reply: Reply): (o: Outcome)
    requires id !in rows
    ensures o.Blocked? <==> !FormValid(f)
    ensures o.ShowsError? ==> o.rows == rows && o.message == SubmitFailure
    ensures FormValid(f) ==> (o.Saved? <==> Present(caller) && !reply.Failed?)
    ensures o.Saved? ==>
              && o.rows.Keys == rows.Keys + {id}
              && OthersUnchanged(rows, o.rows, id)
              && o.rows[id] == CoursePayload(id, FormInput(f), caller.value)
  {
    if !FormValid(f) then Blocked
    else
      var step := AddCourse(rows, FormInput(f), caller, id, reply);
      if step.result.Err? then ShowsError(rows, SubmitFailure) else Saved(step.rows)
  }

  /** Saving an edit leaves the edited course in place and adds a new row beside it. */
  lemma EditAddsNewCourse(c: Course, rows: map<Id, Course>, caller: Option<string>, id: Id, reply: Reply)
    requires id !in rows && c.id in rows && rows[c.id] == c
    requires Submit(InitialForm(Some(c)), rows, caller, id, reply).Saved?
    ensures var o := Submit(InitialForm(Some(c)), rows, caller, id, reply);
            c.id in o.rows && o.rows[c.id] == c && id != c.id && id in o.rows
  {
  }

  /**
   * Resubmitting an unchanged edit form carries the course's fields over:
   * the syllabus comes back item for item, and projects unless it was 0.
   */
  lemma PrefillRoundTrip(c: Course)
    requires AllClean(c.syllabus)
    ensures var input := FormInput(InitialForm(Some(c)));
            && NormaliseSyllabus(input.syllabus) == c.syllabus
            && input.title == c.title && input.kind == c.kind
            && input.description == c.description && input.duration == c.duration
            && input.grades == c.grades.GetOr("") && input.level == c.level.GetOr("")
            && (c.projects != Some(0) ==> StoredNumber(input.projects) == c.projects)
  {
    SyllabusRoundTrip(c.syllabus);
  }
}

=== FILE: admin_testimonial.dfy ===
/**
 * The admin testimonial panel: a form that adds a testimonial, or updates
 * the one being edited, and a list refreshed after every change.
 */
module AdminTestimonial {
  import opened Wrappers
  import opened Js
  import opened Store
  import opened TestimonialAction

  /** The panel's state; the form's five fields are the entries it sends. */
  datatype Panel = Panel(form: FormData, editingId: Option<Id>, list: seq<Testimonial>)

  /** The panel and the table after an action, and the toast it shows. */
  datatype After = After(panel: Panel, rows: map<Id, Testimonial>, toast: string)

  /** What the outside world answers while a form is saved. */
  datatype Env = Env(caller: Option<string>, id: Id, now: Timestamp, reply: Reply, fetchFault: Option<string>)

  const EmptyForm := FormData("", "", "5", "", "")
  const Added := "Testimonial added successfully!"
  const Updated := "Testimonial updated successfully!"
  const Deleted := "Testimonial deleted successfully!"

  /** `if (editingId)`: an id of 0 is falsy like no id at all. */
  predicate Editing(p: Panel) {
    p.editingId.Some? && p.editingId.value != 0
  }

  /** `fetchTestimonials`: on failure the list stays and only a toast appears. */
  function Refetch(p: Panel, rows: map<Id, Testimonial>, fault: Option<string>): (r: Panel)
    ensures r.form == p.form && r.editingId == p.editingId
    ensures fault.Some? ==> r == p
    ensures fault.None? ==> NewestFirst(r.list, CreatedAt) && |r.list| == |rows|
    ensures fault.None? ==> forall k :: k in rows ==> rows[k] in r.list
    ensures fault.None? ==> forall i :: 0 <= i < |r.list| ==> r.list[i] in rows.Values
  {
    match GetTestimonials(rows, fault)
    case Ok(list) => p.(list := list)
    case Err(_) => p
  }

  /** The server action `handleSubmit` calls, with the table after it. */
  function Save(p: Panel, rows: map<Id, Testimonial>, env: Env): (r: Step<Testimonial, Testimonial>)
    requires env.id !in rows
    ensures Editing(p) ==> r == UpdateTestimonial(rows, p.editingId.value, p.form, env.caller, env.reply)
    ensures !Editing(p) ==> r == AddTestimonial(rows, p.form, env.caller, env.id, env.now, env.reply)
    ensures Editing(p) ==> r.rows.Keys == rows.Keys
    ensures !Editing(p) ==> r.rows.Keys <= rows.Keys + {env.id}
    ensures forall k :: k in rows && !(Editing(p) && k == p.editingId.value) ==> k in r.rows && r.rows[k] == rows[k]
  {
    if Editing(p) then UpdateTestimonial(rows, p.editingId.value, p.form, env.caller, env.reply)
    else AddTestimonial(rows, p.form, env.caller, env.id, env.now, env.reply)
  }

  /**
   * `handleSubmit`: an empty name or content stops before any server call;
   * a success clears the form and the edit target and refetches the list;
   * a failure keeps the form and the edit target.
   */
  function Submit(p: Panel, rows: map<Id, Testimonial>, env: Env): (a: After)
    requires env.id !in rows
    ensures p.form.name == "" || p.form.content == "" ==> a == After(p, rows, NameAndContentRequired)
    ensures p.form.name != "" && p.form.content != "" ==> a.rows == Save(p, rows, env).rows
    ensures Save(p, rows, env).result.Ok? && p.form.name != "" && p.form.content != "" ==>
              a.panel.form == EmptyForm && a.panel.editingId.None?
    ensures p.form.name != "" && p.form.content != "" && Save(p, rows, env).result.Err? ==>
              a.panel == p && a.toast == Or(Save(p, rows, env).result.error, "An error occurred")
    ensures Editing(p) && p.form.name != "" && p.form.content != "" && Present(env.caller) ==>
              a.rows.Keys == rows.Keys
    ensures p.form.name != "" && p.form.content != "" && Save(p, rows, env).result.Ok? ==>
              && a.panel == Refetch(p.(form := EmptyForm, editingId := None), a.rows, env.fetchFault)
              && a.toast == (if Editing(p) then Updated else Added)
    ensures !Editing(p) && Save(p, rows, env).result.Ok? && p.form.name != "" && p.form.content != "" &&
            env.fetchFault.None? ==>
              NewTestimonial(env.id, p.form, env.caller.value, env.now) in a.panel.list
    ensures Editing(p) && Save(p, rows, env).result.Ok? && p.form.name != "" && p.form.content != "" &&
            env.fetchFault.None? ==>
              p.editingId.value in rows && Patch(rows[p.editingId.value], p.form) in a.panel.list
  {
    if p.form.name == "" || p.form.content == "" then After(p, rows, NameAndContentRequired)
    else
      var step := Save(p, rows, env);
      match step.result
      case Err(m) => After(p, step.rows, Or(m, "An error occurred"))
      case Ok(_) =>
        var cleared := p.(form := EmptyForm, editingId := None);
        SavedRowListed(p, rows, env);
        After(Refetch(cleared, step.rows, env.fetchFault), step.rows, if Editing(p) then Updated else Added)
  }

  /** After a successful save the refetched list holds the row that was saved. */
  lemma SavedRowListed(p: Panel, rows: map<Id, Testimonial>, env: Env)
    requires env.id !in rows && Save(p, rows, env).result.Ok?
    ensures var list := Refetch(p.(form := EmptyForm, editingId := None), Save(p, rows, env).rows, env.fetchFault).list;
            && (env.fetchFault.None? && !Editing(p) ==> NewTestimonial(env.id, p.form, env.caller.value, env.now) in list)
            && (Editing(p) ==> p.editingId.value in rows)
            && (env.fetchFault.None? && Editing(p) ==> Patch(rows[p.editingId.value], p.form) in list)
  {
    var step := Save(p, rows, env);
    if Editing(p) {
      var id := p.editingId.value;
      assert id in step.rows && step.rows[id] == Patch(rows[id], p.form);
    } else {
      assert env.id in step.rows && step.rows[env.id] == NewTestimonial(env.id, p.form, env.caller.value, env.now);
    }
  }

  /** The form `handleEdit` fills in: rating 5 when the row has none, empty grade and subjects when absent. */
  function EditForm(t: Testimonial): (f: FormData)
    ensures f.name == t.name && f.content == t.content
    ensures f.grade == t.grade.GetOr("") && f.subjects == t.subjects.GetOr("")
    ensures t.rating.Some? && t.rating.value != 0 ==> f.rating == IntString(t.rating.value)
    ensures t.rating.None? || t.rating == Some(0) ==> f.rating == "5"
  {
    var rating := if t.rating.Some? && t.rating.value != 0 then IntString(t.rating.value) else "5";
    FormData(t.name, t.content, rating, t.grade.GetOr(""), t.subjects.GetOr(""))
  }

  /** `handleEdit`: the row's fields go into the form and its id becomes the edit target. */
  function Edit(p: Panel, t: Testimonial): (r: Panel)
    ensures r.form == EditForm(t) && r.editingId == Some(t.id) && r.list == p.list
  {
    p.(form := EditForm(t), editingId := Some(t.id))
  }

  /** Saving an edited row unchanged gives back the same row when it has a non-zero rating. */
  lemma EditThenSaveKeepsRow(t: Testimonial)
    requires t.rating.Some? && t.rating.value != 0
    ensures Patch(t, EditForm(t)) == t
  {
    NumberOfIntString(t.rating.value);
  }

  /** A row without a rating gets 5 when it is edited and saved unchanged. */
  lemma EditThenSaveRatesFive(t: Testimonial)
    requires t.rating.None?
    ensures Patch(t, EditForm(t)).rating == Some(5)
  {
    NumberOfIntString(5);
  }

  /** Cancel: the form empties and nothing is being edited; the list stays. */
  function Cancel(p: Panel): (r: Panel)
    ensures r.form == EmptyForm && !Editing(r) && r.list == p.list
  {
    p.(form := EmptyForm, editingId := None)
  }

  /**
   * What the rating input lets through (`type="number" min="1" max="5"`,
   * not required), for integer texts: empty, or a whole number from 1 to 5.
   */
  predicate RatingInputAllows(text: string) {
    text == "" || (IsSignedDecimal(text) && text[0] != '+' && 1 <= SignedValue(text) <= 5)
  }

  /** Through the panel's own input, a rating that is sent is stored as a number from 1 to 5. */
  lemma BrowserRatingInRange(t: Testimonial, f: FormData)
    requires RatingInputAllows(f.rating) && f.rating != ""
    ensures Patch(t, f).rating.Some? && 1 <= Patch(t, f).rating.value <= 5
  {
    NumberOfSignedDecimal(f.rating);
  }

  /** `handleDelete`: nothing happens without confirmation; the form is never touched. */
  function Delete(p: Panel, rows: map<Id, Testimonial>, id: Id, confirmed: bool, caller: Option<string>,
                  lookup: Option<string>, fault: Option<string>, fetchFault: Option<string>): (a: After)
    ensures !confirmed ==> a == After(p, rows, "")
    ensures a.panel.form == p.form && a.panel.editingId == p.editingId
    ensures confirmed ==> a.rows == DeleteTestimonial(rows, id, caller, lookup, fault).rows
    ensures confirmed && DeleteTestimonial(rows, id, caller, lookup, fault).result.Err? ==>
              a.panel == p && a.rows == rows
    ensures confirmed && DeleteTestimonial(rows, id, caller, lookup, fault).result.Ok? ==>
              a.panel == Refetch(p, a.rows, fetchFault) && a.toast == Deleted
    ensures confirmed && DeleteTestimonial(rows, id, caller, lookup, fault).result.Ok? && fetchFault.None? ==>
              |a.panel.list| == |rows| - 1
  {
    if !confirmed then After(p, rows, "")
    else
      var step := DeleteTestimonial(rows, id, caller, lookup, fault);
      match step.result
      case Err(m) => After(p, step.rows, Or(m, "Failed to delete"))
      case Ok(_) =>
        assert |step.rows| == |step.rows.Keys| == |rows.Keys - {id}| == |rows| - 1;
        After(Refetch(p, step.rows, fetchFault), step.rows, Deleted)
  }
}

=== FILE: course_action.dfy ===
/**
 * The course server actions: `addCourse` (author stamp and syllabus
 * normalisation), `getCourses` and `deleteCourse`, over the `courses`
 * table.
 */
module CourseAction {
  import opened Wrappers
  import opened Js
  import opened Store

  /** The `type` column: 'school' | 'skills'. */
  datatype CourseType = School | Skills

  /** What the course form hands to `addCourse`; `projects` may be NaN. */
  datatype CourseInput = CourseInput(
    title: string,
    kind: CourseType,
    grades: string,
    level: string,
    description: string,
    duration: string,
    syllabus: Option<string>,
    projects: Option<Num>)

  /** A row of the `courses` table as the dashboard reads it. */
  datatype Course = Course(
    id: Id,
    title: string,
    kind: CourseType,
    grades: Option<string>,
    level: Option<string>,
    description: string,
    duration: string,
    syllabus: seq<string>,
    projects: Option<int>,
    author: string,
    createdAt: Option<Timestamp>,
    updatedAt: Option<Timestamp>)

  /** What `getCourses` returns: the rows, or the store's error message. */
  datatype Listing = Rows(courses: seq<Course>) | Message(text: string)

  // ---------------------------------------------------------------------
  // Syllabus normalisation
  // ---------------------------------------------------------------------

  /** A stored syllabus item: non-empty, trimmed, on one line. */
  predicate CleanItem(s: string) {
    s != "" && IsTrimmed(s) && '\n' !in s
  }

  predicate AllClean(items: seq<string>) {
    forall i :: 0 <= i < |items| ==> CleanItem(items[i])
  }

  /** No line contains `c`. */
  predicate NoneContains(lines: seq<string>, c: char) {
    forall i :: 0 <= i < |lines| ==> c !in lines[i]
  }

  /** `.map(s => s.trim()).filter(Boolean)` over the lines. */
  function CleanLines(lines: seq<string>): (r: seq<string>)
    ensures |r| <= |lines|
    ensures forall i :: 0 <= i < |r| ==> r[i] != "" && IsTrimmed(r[i])
    ensures forall c :: NoneContains(lines, c) ==> NoneContains(r, c)
  {
    if |lines| == 0 then []
    else
      var t := Trim(lines[0]);
      assert forall c :: NoneContains(lines, c) ==> NoneContains(lines[1..], c);
      (if t == "" then [] else [t]) + CleanLines(lines[1..])
  }

  /** The stored syllabus for the submitted textarea text. */
  function NormaliseSyllabus(text: Option<string>): (items: seq<string>)
    ensures text.None? ==> items == []
    ensures AllClean(items)
  {
    match text
    case None => []
    case Some(t) =>
      var lines := Split(t, '\n');
      assert NoneContains(lines, '\n');
      CleanLines(lines)
  }

  /** Cleaning distributes over concatenation, so lines keep their order. */
  lemma {:induction false} CleanLinesAppend(a: seq<string>, b: seq<string>)
    ensures CleanLines(a + b) == CleanLines(a) + CleanLines(b)
  {
    if |a| > 0 {
      var t := Trim(a[0]);
      var head: seq<string> := if t == "" then [] else [t];
      assert (a + b)[0] == a[0];
      assert (a + b)[1..] == a[1..] + b;
      assert CleanLines(a + b) == head + CleanLines(a[1..] + b);
      CleanLinesAppend(a[1..], b);
      assert CleanLines(a) == head + CleanLines(a[1..]);
    } else {
      assert a + b == b;
    }
  }

  /** One line contributes its trimmed text, or nothing when it is blank. */
  lemma CleanLinesSingle(line: string)
    ensures CleanLines([line]) == (if AllWhiteSpace(line) then [] else [Trim(line)])
  {
    assert [line][1..] == [];
  }

  /** Every non-blank line's trimmed text is kept, and every kept item came from a line. */
  lemma {:induction false} CleanLinesMembers(lines: seq<string>)
    ensures forall j :: 0 <= j < |lines| && !AllWhiteSpace(lines[j]) ==> Trim(lines[j]) in CleanLines(lines)
    ensures forall x :: x in CleanLines(lines) ==> exists j :: 0 <= j < |lines| && x == Trim(lines[j])
  {
    if |lines| > 0 {
      CleanLinesMembers(lines[1..]);
      var r := CleanLines(lines);
      var tail := CleanLines(lines[1..]);
      assert forall x :: x in tail ==> x in r;
      forall x | x in r
        ensures exists j :: 0 <= j < |lines| && x == Trim(lines[j])
      {
        if x !in tail {
          assert x == Trim(lines[0]);
        } else {
          var j :| 0 <= j < |lines[1..]| && x == Trim(lines[1..][j]);
          assert lines[1..][j] == lines[j + 1];
        }
      }
      forall j | 0 <= j < |lines| && !AllWhiteSpace(lines[j])
        ensures Trim(lines[j]) in r
      {
        if j > 0 {
          assert lines[1..][j - 1] == lines[j];
        }
      }
    }
  }

  /** Clean items survive cleaning unchanged. */
  lemma {:induction false} CleanLinesOfClean(items: seq<string>)
    requires AllClean(items)
    ensures CleanLines(items) == items
  {
    if |items| > 0 {
      CleanLinesOfClean(items[1..]);
      assert !AllWhiteSpace(items[0]) by {
        assert items[0] != "";
        assert Trim(items[0]) == items[0];
      }
      assert items == [items[0]] + items[1..];
    }
  }

  /** The textarea prefill of an edit, submitted again, gives back the same items. */
  lemma SyllabusRoundTrip(items: seq<string>)
    requires AllClean(items)
    ensures NormaliseSyllabus(Some(Join(items, '\n'))) == items
  {
    if |items| == 0 {
      assert Split("", '\n') == [""];
      CleanLinesSingle("");
    } else {
      SplitJoin(items, '\n');
      CleanLinesOfClean(items);
    }
  }

  /** Normalising what a normalised syllabus prefills changes nothing. */
  lemma SyllabusIdempotent(text: Option<string>)
    ensures NormaliseSyllabus(Some(Join(NormaliseSyllabus(text), '\n'))) == NormaliseSyllabus(text)
  {
    SyllabusRoundTrip(NormaliseSyllabus(text));
  }

  /** Two blocks of lines separated by a newline normalise to the two results in order. */
  lemma SyllabusAround(a: string, b: string)
    ensures NormaliseSyllabus(Some(a + "\n" + b))
         == NormaliseSyllabus(Some(a)) + NormaliseSyllabus(Some(b))
  {
    SplitAround(a, b, '\n');
    CleanLinesAppend(Split(a, '\n'), Split(b, '\n'));
  }

  /** A single line normalises to its trimmed text, or to nothing when blank. */
  lemma SyllabusOneLine(line: string)
    requires '\n' !in line
    ensures NormaliseSyllabus(Some(line)) == (if AllWhiteSpace(line) then [] else [Trim(line)])
  {
    SplitWithoutSeparator(line, '\n');
    CleanLinesSingle(line);
  }

  // ---------------------------------------------------------------------
  // addCourse, getCourses, deleteCourse
  // ---------------------------------------------------------------------

  /** Every row sits under its own id. */
  predicate WellKeyed(rows: map<Id, Course>) {
    forall k :: k in rows ==> rows[k].id == k
  }

  /** How a submitted number reaches the store: JSON writes NaN as null. */
  function StoredNumber(n: Option<Num>): (r: Option<int>)
    ensures r.Some? <==> n.Some? && n.value.Int?
    ensures r.Some? ==> r.value == n.value.value
  {
    match n
    case Some(Int(v)) => Some(v)
    case _ => None
  }

  /** The row `addCourse` inserts: the input's fields, the caller as author, the cleaned syllabus. */
  function CoursePayload(id: Id, input: CourseInput, author: string): (c: Course)
    ensures c.id == id && c.author == author
    ensures c.syllabus == NormaliseSyllabus(input.syllabus) && AllClean(c.syllabus)
    ensures c.title == input.title && c.kind == input.kind && c.description == input.description
    ensures c.duration == input.duration
    ensures c.grades == Some(input.grades) && c.level == Some(input.level)
    ensures c.projects == StoredNumber(input.projects)
  {
    Course(id, input.title, input.kind, Some(input.grades), Some(input.level), input.description,
           input.duration, NormaliseSyllabus(input.syllabus), StoredNumber(input.projects),
           author, None, None)
  }

  /**
   * `addCourse`. `id` is the id the store would assign; `reply` is the
   * store's answer to the insert. An error is thrown; otherwise the first
   * returned row, if any, is the result.
   */
  function AddCourse(rows: map<Id, Course>, input: CourseInput, caller: Option<string>,
                     id: Id, reply: Reply): (r: Step<Course, Option<Course>>)
    requires id !in rows
    ensures !Present(caller) ==> r == Step(rows, Err("Authentication required"))
    ensures Present(caller) && reply.Failed? ==>
              r == Step(rows, Err(Or(reply.message, "Failed to create course")))
    ensures r.result.Err? ==> r.rows == rows && r.result.error != ""
    ensures r.result.Ok? <==> Present(caller) && !reply.Failed?
    ensures r.result.Ok? ==>
              && r.rows.Keys == rows.Keys + {id}
              && r.rows[id] == CoursePayload(id, input, caller.value)
              && OthersUnchanged(rows, r.rows, id)
    ensures r.result.Ok? ==> (r.result.value.Some? <==> reply.Done?)
    ensures r.result.Ok? && r.result.value.Some? ==> id in r.rows && r.result.value.value == r.rows[id]
    ensures WellKeyed(rows) ==> WellKeyed(r.rows)
  {
    if !Present(caller) then Step(rows, Err("Authentication required"))
    else
      var row := CoursePayload(id, input, caller.value);
      match reply
      case Failed(m) => Step(rows, Err(Or(m, "Failed to create course")))
      case Done => Step(rows[id := row], Ok(Some(row)))
      case NoRows => Step(rows[id := row], Ok(None))
  }

  /** `getCourses`: the store's error message is returned, not thrown. */
  function GetCourses(rows: map<Id, Course>, fault: Option<string>): (r: Listing)
    ensures fault.Some? ==> r == Message(fault.value)
    ensures fault.None? ==> r.Rows? && |r.courses| == |rows|
    ensures fault.None? ==> forall i :: 0 <= i < |r.courses| ==> r.courses[i] in rows.Values
    ensures fault.None? ==> forall k :: k in rows ==> rows[k] in r.courses
  {
    match fault
    case Some(m) => Message(m)
    case None => Rows(Values(rows))
  }

  /** `deleteCourse`: no caller, author or existence check; `true` or the error message. */
  function DeleteCourse(rows: map<Id, Course>, id: Id, fault: Option<string>): (r: Step<Course, bool>)
    ensures fault.Some? ==> r == Step(rows, Err(fault.value))
    ensures fault.None? ==> r.result == Ok(true)
    ensures r.result.Ok? ==> id !in r.rows && r.rows.Keys == rows.Keys - {id}
    ensures r.result.Ok? ==> OthersUnchanged(rows, r.rows, id)
    ensures WellKeyed(rows) ==> WellKeyed(r.rows)
  {
    match fault
    case Some(m) => Step(rows, Err(m))
    case None => Step(map k | k in rows && k != id :: rows[k], Ok(true))
  }
}

=== FILE: courses_page.dfy ===
/**
 * The public courses page: the load outcome, the school/skills tabs that
 * filter the loaded list, the single expanded card, and what each card
 * shows.
 */
module CoursesPage {
  import opened Wrappers
  import opened Js
  import opened Store
  import opened CourseAction

  const InvalidFormat := "Failed to fetch courses: Invalid data format"
  const FetchFailed := "Failed to fetch courses"
  const ViewSyllabus := "View Syllabus"
  const HideSyllabus := "Hide Syllabus"

  /** What the page renders once loading is over. */
  datatype PageView = ErrorText(message: string) | Catalogue(courses: seq<Course>)

  /**
   * `fetchCourses`: an array replaces the (empty) list; anything else,
   * including the message `getCourses` returns on a store error, becomes
   * the fixed invalid-format error; a thrown error shows its message or
   * the fallback. `Err` stands for a rejected call.
   */
  function Fetch(fetched: Result<Listing, string>): (v: PageView)
    ensures v.ErrorText? ==> v.message != ""
    ensures v.Catalogue? <==> fetched.Ok? && fetched.value.Rows?
    ensures v.Catalogue? ==> v.courses == fetched.value.courses
    ensures fetched.Ok? && fetched.value.Message? ==> v == ErrorText(InvalidFormat)
    ensures fetched.Err? ==> v == ErrorText(Or(fetched.error, FetchFailed))
  {
    match fetched
    case Ok(Rows(cs)) => Catalogue(cs)
    case Ok(Message(_)) => ErrorText(InvalidFormat)
    case Err(m) => ErrorText(Or(m, FetchFailed))
  }

  /** The page never shows the store's own error message: every store error reads the same. */
  lemma StoreErrorHidden(rows: map<Id, Course>, m1: string, m2: string)
    ensures Fetch(Ok(GetCourses(rows, Some(m1)))) == Fetch(Ok(GetCourses(rows, Some(m2))))
    ensures Fetch(Ok(GetCourses(rows, Some(m1)))) == ErrorText(InvalidFormat)
  {
  }

  /** `courses.filter(course => course.type === kind)`. */
  function OfKind(cs: seq<Course>, kind: CourseType): (r: seq<Course>)
    ensures |r| <= |cs|
    ensures forall i :: 0 <= i < |r| ==> r[i].kind == kind
    ensures forall c :: c in r <==> c in cs && c.kind == kind
  {
    if |cs| == 0 then []
    else if cs[0].kind == kind then [cs[0]] + OfKind(cs[1..], kind)
    else OfKind(cs[1..], kind)
  }

  /** Filtering a concatenation filters each part and keeps their order. */
  lemma {:induction false} OfKindAppend(a: seq<Course>, b: seq<Course>, kind: CourseType)
    ensures OfKind(a + b, kind) == OfKind(a, kind) + OfKind(b, kind)
  {
    if |a| == 0 {
      assert a + b == b;
    } else {
      assert (a + b)[0] == a[0];
      assert (a + b)[1..] == a[1..] + b;
      OfKindAppend(a[1..], b, kind);
    }
  }

  /** The two tabs split the loaded list: every course is on exactly one tab, as often as it was loaded. */
  lemma {:induction false} TabsPartition(cs: seq<Course>)
    ensures multiset(OfKind(cs, School)) + multiset(OfKind(cs, Skills)) == multiset(cs)
    ensures |OfKind(cs, School)| + |OfKind(cs, Skills)| == |cs|
  {
    if |cs| > 0 {
      TabsPartition(cs[1..]);
      assert cs == [cs[0]] + cs[1..];
    }
  }

  /** Filtering again by the same kind changes nothing. */
  lemma {:induction false} OfKindIdempotent(cs: seq<Course>, kind: CourseType)
    ensures OfKind(OfKind(cs, kind), kind) == OfKind(cs, kind)
  {
    if |cs| > 0 {
      OfKindIdempotent(cs[1..], kind);
    }
  }

  /** The active tab's grid. The tab state holds the same two words as a course's type. */
  function Displayed(cs: seq<Course>, tab: CourseType): (r: seq<Course>)
    ensures forall c :: c in r <==> c in cs && c.kind == tab
  {
    OfKind(cs, tab)
  }

  /** `toggleCourse`: clicking the open card closes it, clicking another opens that one instead. */
  function ToggleCourse(expanded: Option<Id>, id: Id): (r: Option<Id>)
    ensures r == Some(id) <==> expanded != Some(id)
    ensures forall k :: k != id ==> r != Some(k)
  {
    if expanded == Some(id) then None else Some(id)
  }

  /** Clicking the same card twice restores the previous state when that card was open or none was. */
  lemma ToggleCourseTwice(expanded: Option<Id>, id: Id)
    requires expanded.None? || expanded == Some(id)
    ensures ToggleCourse(ToggleCourse(expanded, id), id) == expanded
  {
  }

  /** A template literal renders a null column as the word "null". */
  function TemplateText(v: Option<string>): (s: string)
    ensures v.Some? ==> s == v.value
    ensures v.None? ==> s == "null"
  {
    match v
    case Some(t) => t
    case None => "null"
  }

  /** One course card. */
  datatype CardView = CardView(
    title: string,
    subtitle: string,
    badge: Option<string>,
    button: string,
    content: Option<seq<string>>,
    duration: Option<string>)

  /**
   * The card: the grades or level line by type, a projects badge on skills
   * courses (a null count renders as nothing before "+ Projects"), and the
   * syllabus with the duration only on the expanded card.
   */
  function RenderCourse(c: Course, expanded: Option<Id>): (v: CardView)
    ensures v.title == c.title
    ensures c.kind == School && c.grades.Some? ==> v.subtitle == "Grades: " + c.grades.value
    ensures c.kind == School && c.grades.None? ==> v.subtitle == "Grades: null"
    ensures c.kind == Skills && c.level.Some? ==> v.subtitle == "Level: " + c.level.value
    ensures c.kind == Skills && c.level.None? ==> v.subtitle == "Level: null"
    ensures v.badge.Some? <==> c.kind == Skills
    ensures v.badge.Some? && c.projects.Some? ==> v.badge.value == IntString(c.projects.value) + "+ Projects"
    ensures v.badge.Some? && c.projects.None? ==> v.badge.value == "+ Projects"
    ensures v.content.Some? <==> expanded == Some(c.id)
    ensures v.content.Some? ==> v.content.value == c.syllabus && v.duration == Some(c.duration)
    ensures v.content.None? <==> v.duration.None?
    ensures v.button == (if expanded == Some(c.id) then HideSyllabus else ViewSyllabus)
  {
    var open := expanded == Some(c.id);
    CardView(
      c.title,
      match c.kind
        case School => "Grades: " + TemplateText(c.grades)
        case Skills => "Level: " + TemplateText(c.level),
      if c.kind == Skills
      then Some((match c.projects case Some(n) => IntString(n) case None => "") + "+ Projects")
      else None,
      if open then HideSyllabus else ViewSyllabus,
      if open then Some(c.syllabus) else None,
      if open then Some(c.duration) else None)
  }

  /** At most one card on the page shows its syllabus. */
  lemma OneCardOpen(cs: seq<Course>, expanded: Option<Id>, i: int, j: int)
    requires 0 <= i < |cs| && 0 <= j < |cs|
    requires RenderCourse(cs[i], expanded).content.Some?
    requires RenderCourse(cs[j], expanded).content.Some?
    ensures cs[i].id == cs[j].id
  {
  }

  /** A course saved through the admin form shows its cleaned syllabus lines, and nothing else, when opened. */
  lemma SavedSyllabusShown(id: Id, input: CourseInput, author: string)
    ensures RenderCourse(CoursePayload(id, input, author), Some(id)).content
            == Some(NormaliseSyllabus(input.syllabus))
    ensures RenderCourse(CoursePayload(id, input, author), Some(id)).subtitle
            == (if input.kind == School then "Grades: " + input.grades else "Level: " + input.level)
  {
  }
}

=== FILE: dashboard.dfy ===
/**
 * The admin dashboard page: who sees it, which tab loads what, and the
 * course and activity lists with their delete buttons and form toggles.
 */
module Dashboard {
  import opened Wrappers
  import opened Js
  import opened Store
  import opened CourseAction
  import opened ActivityAction
  import AdminCourseForm

  const AdminRole := "admin"
  const LoadCoursesFailed := "Failed to load courses"
  const LoadActivitiesFailed := "Failed to load activities"
  const DeleteCourseFailed := "Failed to delete course"
  const DeleteActivityFailed := "Failed to delete activity"

  datatype Tab = CoursesTab | ActivitiesTab | TestimonialsTab

  /**
   * The page's state; `courseForm` holds the fields of the course form
   * while it is shown, and `error` is the banner above the tab content.
   */
  datatype Dash = Dash(
    tab: Tab,
    courses: seq<Course>,
    activities: seq<Activity>,
    editCourse: Option<Course>,
    showCourseForm: bool,
    courseForm: AdminCourseForm.CourseForm,
    showActivityForm: bool,
    error: Option<string>)

  const Initial := Dash(CoursesTab, [], [], None, false, AdminCourseForm.InitialForm(None), false, None)

  /** `user?.publicMetadata?.role === 'admin'`. */
  predicate IsAdmin(role: Option<string>) {
    role == Some(AdminRole)
  }

  datatype View = LoadingAdmin | Unauthorized | Panel

  /** What renders, by whether the user record has loaded and its role. */
  function Access(isLoaded: bool, role: Option<string>): (v: View)
    ensures v == Panel <==> isLoaded && IsAdmin(role)
    ensures v == LoadingAdmin <==> !isLoaded
  {
    if !isLoaded then LoadingAdmin else if !IsAdmin(role) then Unauthorized else Panel
  }

  /** The redirect effect: a loaded user who is not an admin is sent to the unauthorized page. */
  predicate Redirects(isLoaded: bool, role: Option<string>) {
    isLoaded && !IsAdmin(role)
  }

  /** The redirect fires exactly when the page would show its unauthorized notice. */
  lemma RedirectMatchesNotice(isLoaded: bool, role: Option<string>)
    ensures Redirects(isLoaded, role) <==> Access(isLoaded, role) == Unauthorized
  {
  }

  /**
   * `loadCourses`: an array replaces the list; a non-array result, which is
   * what a store error comes back as, is ignored; a rejected call sets the
   * banner. `Err` stands for a rejected call.
   */
  function LoadCourses(d: Dash, fetched: Result<Listing, string>): (r: Dash)
    ensures fetched.Ok? && fetched.value.Rows? ==> r == d.(courses := fetched.value.courses)
    ensures fetched.Ok? && fetched.value.Message? ==> r == d
    ensures fetched.Err? ==> r == d.(error := Some(LoadCoursesFailed))
    ensures d.error.Some? ==> r.error.Some?
  {
    match fetched
    case Ok(Rows(cs)) => d.(courses := cs)
    case Ok(Message(_)) => d
    case Err(_) => d.(error := Some(LoadCoursesFailed))
  }

  /** A store error while listing courses leaves the page exactly as it was, without any message. */
  lemma CourseStoreErrorIgnored(d: Dash, rows: map<Id, Course>, m: string)
    ensures LoadCourses(d, Ok(GetCourses(rows, Some(m)))) == d
  {
  }

  /** `loadActivities`: `getActivities` throws on a store error, and the banner shows a fixed text. */
  function LoadActivities(d: Dash, fetched: Result<seq<Activity>, string>): (r: Dash)
    ensures fetched.Ok? ==> r == d.(activities := fetched.value)
    ensures fetched.Err? ==> r == d.(error := Some(LoadActivitiesFailed))
    ensures d.error.Some? ==> r.error.Some?
  {
    match fetched
    case Ok(list) => d.(activities := list)
    case Err(_) => d.(error := Some(LoadActivitiesFailed))
  }

  /** The data the tab effect may fetch: a courses listing and an activities listing. */
  datatype Fetched = Fetched(courses: Result<Listing, string>, activities: Result<seq<Activity>, string>)

  /**
   * The tab effect's body: the courses tab loads courses, the activities
   * tab loads activities, the testimonials tab loads nothing. It does not
   * look at the user's role.
   */
  function TabEffect(d: Dash, f: Fetched): (r: Dash)
    ensures r.tab == d.tab
    ensures d.tab == CoursesTab ==> r == LoadCourses(d, f.courses)
    ensures d.tab == ActivitiesTab ==> r == LoadActivities(d, f.activities)
    ensures d.tab == TestimonialsTab ==> r == d
    ensures r.editCourse == d.editCourse && r.showCourseForm == d.showCourseForm
    ensures r.showActivityForm == d.showActivityForm
    ensures d.error.Some? ==> r.error.Some?
  {
    match d.tab
    case CoursesTab => LoadCourses(d, f.courses)
    case ActivitiesTab => LoadActivities(d, f.activities)
    case TestimonialsTab => d
  }

  /**
   * The first render: the effect runs once on the initial courses tab,
   * before and whatever the user's role turns out to be.
   */
  function Mount(f: Fetched): (r: Dash)
    ensures r.tab == CoursesTab && !r.showCourseForm && !r.showActivityForm && r.editCourse.None?
    ensures r.activities == []
    ensures f.courses.Ok? && f.courses.value.Rows? ==> r.courses == f.courses.value.courses && r.error.None?
    ensures f.courses.Err? ==> r.courses == [] && r.error == Some(LoadCoursesFailed)
  {
    TabEffect(Initial, f)
  }

  /**
   * A tab button: the effect depends on the active tab (its two loaders
   * are stable callbacks), so it re-runs only when the tab changes;
   * pressing the tab already shown leaves the page as it is. The course
   * form lives inside the courses tab's content, so leaving that tab
   * unmounts it, and coming back with the form still shown mounts it
   * afresh on the edit target's fields.
   */
  function SelectTab(d: Dash, tab: Tab, f: Fetched): (r: Dash)
    ensures r.tab == tab
    ensures tab == d.tab ==> r == d
    ensures tab != d.tab && tab == CoursesTab ==>
              r.courses == LoadCourses(d, f.courses).courses && r.error == LoadCourses(d, f.courses).error
    ensures tab != d.tab && tab == CoursesTab && d.showCourseForm ==>
              r.courseForm == AdminCourseForm.InitialForm(d.editCourse)
    ensures tab != d.tab && tab == CoursesTab && !d.showCourseForm ==> r.courseForm == d.courseForm
    ensures tab != d.tab && tab == ActivitiesTab ==> r == LoadActivities(d.(tab := tab), f.activities)
    ensures tab == TestimonialsTab ==> r == d.(tab := tab)
    ensures r.editCourse == d.editCourse && r.showCourseForm == d.showCourseForm
    ensures r.showActivityForm == d.showActivityForm
    ensures tab != ActivitiesTab ==> r.activities == d.activities
    ensures d.error.Some? ==> r.error.Some?
  {
    if tab == d.tab then d
    else if tab == CoursesTab && d.showCourseForm then
      TabEffect(d.(tab := tab, courseForm := AdminCourseForm.InitialForm(d.editCourse)), f)
    else TabEffect(d.(tab := tab), f)
  }

  /** On first render the courses tab fetches the courses; no role enters into it. */
  lemma MountLoadsCourses(rows: map<Id, Course>, activities: Result<seq<Activity>, string>)
    ensures Mount(Fetched(Ok(GetCourses(rows, None)), activities)).courses == Values(rows)
  {
  }

  /**
   * Going to the activities tab and back reloads the courses, while
   * pressing the courses tab again does not: a failing fetch then shows no
   * banner.
   */
  lemma ReselectDoesNotReload(d: Dash, f: Fetched, g: Fetched)
    requires d.tab == CoursesTab && d.error.None? && f.courses.Err? && g.activities.Ok?
    ensures SelectTab(d, CoursesTab, f).error.None?
    ensures SelectTab(SelectTab(d, ActivitiesTab, g), CoursesTab, f).error == Some(LoadCoursesFailed)
  {
  }

  /**
   * Leaving the courses tab and coming back remounts the course form, so
   * the stale fields left by a second edit give way to the edit target's.
   */
  lemma TabRoundTripRefreshesFields(d: Dash, a: Course, b: Course, other: Tab, f: Fetched, g: Fetched)
    requires d.tab == CoursesTab && !d.showCourseForm && other != CoursesTab
    ensures SelectTab(SelectTab(EditClick(EditClick(d, a), b), other, g), CoursesTab, f).editCourse == Some(b)
    ensures SelectTab(SelectTab(EditClick(EditClick(d, a), b), other, g), CoursesTab, f).courseForm
            == AdminCourseForm.InitialForm(Some(b))
  {
  }

  /**
   * `handleDeleteCourse`: nothing without confirmation; a deletion reloads
   * the list from the store; a store error sets the banner to its message
   * or the fallback.
   */
  function DeleteCourseClick(d: Dash, rows: map<Id, Course>, id: Id, confirmed: bool,
                             fault: Option<string>, reload: Option<string>): (r: (Dash, map<Id, Course>))
    ensures !confirmed ==> r == (d, rows)
    ensures confirmed && fault.Some? ==> r == (d.(error := Some(Or(fault.value, DeleteCourseFailed))), rows)
    ensures confirmed && fault.None? ==> r.1 == DeleteCourse(rows, id, None).rows
    ensures confirmed && fault.None? ==> r.0 == LoadCourses(d, Ok(GetCourses(r.1, reload)))
    ensures d.error.Some? ==> r.0.error.Some?
  {
    if !confirmed then (d, rows)
    else
      var step := DeleteCourse(rows, id, fault);
      match step.result
      case Ok(_) => (LoadCourses(d, Ok(GetCourses(step.rows, reload))), step.rows)
      case Err(m) => (d.(error := Some(Or(m, DeleteCourseFailed))), step.rows)
  }

  /** After a confirmed, successful delete and reload, the list no longer shows the course and shows every other. */
  lemma DeletedCourseGone(d: Dash, rows: map<Id, Course>, id: Id)
    requires CourseAction.WellKeyed(rows)
    ensures var r := DeleteCourseClick(d, rows, id, true, None, None);
            (forall i :: 0 <= i < |r.0.courses| ==> r.0.courses[i].id != id)
            && (forall k :: k in rows && k != id ==> rows[k] in r.0.courses)
  {
    var step := DeleteCourse(rows, id, None);
    var listed := GetCourses(step.rows, None).courses;
    forall i | 0 <= i < |listed|
      ensures listed[i].id != id
    {
      ValueHasKey(step.rows, listed[i]);
    }
  }

  /**
   * `handleDeleteActivity`: nothing without confirmation; a deletion
   * reloads the list; any failure of the delete sets a fixed banner, not
   * the store's message.
   */
  function DeleteActivityClick(d: Dash, rows: map<Id, ActivityRow>, id: Id, confirmed: bool,
                               lookup: Option<string>, fault: Option<string>,
                               reload: Option<string>): (r: (Dash, map<Id, ActivityRow>))
    ensures !confirmed ==> r == (d, rows)
    ensures confirmed && DeleteActivity(rows, id, lookup, fault).result.Err?
            ==> r == (d.(error := Some(DeleteActivityFailed)), rows)
    ensures confirmed && DeleteActivity(rows, id, lookup, fault).result.Ok?
            ==> r.1 == DeleteActivity(rows, id, lookup, fault).rows
                && r.0 == LoadActivities(d, GetActivities(r.1, reload))
    ensures d.error.Some? ==> r.0.error.Some?
  {
    if !confirmed then (d, rows)
    else
      var step := DeleteActivity(rows, id, lookup, fault);
      match step.result
      case Ok(_) => (LoadActivities(d, GetActivities(step.rows, reload)), step.rows)
      case Err(_) => (d.(error := Some(DeleteActivityFailed)), step.rows)
  }

  /** Deleting an activity that is not there shows the same banner as a store failure. */
  lemma MissingActivitySameBanner(d: Dash, rows: map<Id, ActivityRow>, id: Id, other: Id, m: string)
    requires id !in rows && other in rows
    ensures DeleteActivityClick(d, rows, id, true, None, None, None).0
            == DeleteActivityClick(d, rows, other, true, None, Some(m), None).0
    ensures DeleteActivityClick(d, rows, id, true, None, None, None).0.error == Some(DeleteActivityFailed)
  {
  }

  /**
   * Showing the course form for `course`. The form is rendered in a fixed
   * place without a `key` and reads its fields from `useState`
   * initialisers, which run only when it mounts: a hidden form mounts with
   * the fields of `course`, but a form already shown keeps its fields and
   * only its heading follows the new `course`.
   */
  function OpenCourseForm(d: Dash, course: Option<Course>): (r: Dash)
    ensures r.showCourseForm && r.editCourse == course
    ensures !d.showCourseForm ==> r.courseForm == AdminCourseForm.InitialForm(course)
    ensures d.showCourseForm ==> r.courseForm == d.courseForm
    ensures r.courses == d.courses && r.error == d.error && r.tab == d.tab
    ensures r.showActivityForm == d.showActivityForm
  {
    var fields := if d.showCourseForm then d.courseForm else AdminCourseForm.InitialForm(course);
    d.(editCourse := course, showCourseForm := true, courseForm := fields)
  }

  /**
   * The form as evidently intended, remounted for each course (a `key` on
   * the course): it always shows that course's fields, or blank ones.
   */
  function OpenCourseFormIntended(d: Dash, course: Option<Course>): (r: Dash)
    ensures r.showCourseForm && r.editCourse == course
    ensures r.courseForm == AdminCourseForm.InitialForm(course)
    ensures course.None? ==> r.courseForm.title == "" && r.courseForm.syllabus == ""
    ensures course.Some? ==> r.courseForm.title == course.value.title
    ensures r.courses == d.courses && r.error == d.error && r.tab == d.tab
  {
    d.(editCourse := course, showCourseForm := true, courseForm := AdminCourseForm.InitialForm(course))
  }

  /** The intended form agrees with the written one whenever the form was hidden. */
  lemma IntendedAgreesWhenHidden(d: Dash, course: Option<Course>)
    requires !d.showCourseForm
    ensures OpenCourseFormIntended(d, course) == OpenCourseForm(d, course)
  {
  }

  /** "+ Add Course": the form with no edit target; blank when it was hidden. */
  function AddCourseClick(d: Dash): (r: Dash)
    ensures r.showCourseForm && r.editCourse.None?
    ensures AdminCourseForm.Heading(r.editCourse) == "Add Course"
    ensures !d.showCourseForm ==> r.courseForm == AdminCourseForm.InitialForm(None)
    ensures d.showCourseForm ==> r.courseForm == d.courseForm
    ensures r.courses == d.courses && r.error == d.error && r.tab == d.tab
  {
    OpenCourseForm(d, None)
  }

  /** The edit button: the form on that course, prefilled with it when the form was hidden. */
  function EditClick(d: Dash, c: Course): (r: Dash)
    ensures r.showCourseForm && r.editCourse == Some(c)
    ensures AdminCourseForm.Heading(r.editCourse) == "Edit Course"
    ensures !d.showCourseForm ==> r.courseForm == AdminCourseForm.InitialForm(Some(c))
    ensures d.showCourseForm ==> r.courseForm == d.courseForm
    ensures r.courses == d.courses && r.error == d.error && r.tab == d.tab
  {
    OpenCourseForm(d, Some(c))
  }

  /** The course form's `onSuccess`: reload the list and close the form. */
  function CourseFormSuccess(d: Dash, fetched: Result<Listing, string>): (r: Dash)
    ensures !r.showCourseForm && r.editCourse.None?
    ensures r.courses == LoadCourses(d, fetched).courses
    ensures r.error == LoadCourses(d, fetched).error
  {
    LoadCourses(d, fetched).(showCourseForm := false, editCourse := None)
  }

  /** After an edit is saved, "+ Add Course" opens a blank form rather than the last course edited. */
  lemma AddAfterEditIsBlank(d: Dash, c: Course, fetched: Result<Listing, string>)
    ensures AddCourseClick(CourseFormSuccess(EditClick(d, c), fetched)).editCourse.None?
    ensures AddCourseClick(CourseFormSuccess(EditClick(d, c), fetched)).courseForm
            == AdminCourseForm.InitialForm(None)
  {
  }

  /**
   * As written, pressing edit on a second course while the form shows the
   * first one turns the heading to the second course but keeps the first
   * course's fields; "+ Add Course" at that point does the same under the
   * "Add Course" heading. The intended form shows the second course.
   */
  lemma EditWhileOpenKeepsFields(d: Dash, a: Course, b: Course)
    requires !d.showCourseForm && a.title != b.title
    ensures EditClick(EditClick(d, a), b).editCourse == Some(b)
    ensures EditClick(EditClick(d, a), b).courseForm == AdminCourseForm.InitialForm(Some(a))
    ensures EditClick(EditClick(d, a), b).courseForm.title != b.title
    ensures AddCourseClick(EditClick(d, a)).courseForm == AdminCourseForm.InitialForm(Some(a))
    ensures AddCourseClick(EditClick(d, a)).courseForm.title == a.title
    ensures OpenCourseFormIntended(EditClick(d, a), Some(b)).courseForm.title == b.title
  {
  }

  /** "+ Add Activity": open the activity form and change nothing else. */
  function AddActivityClick(d: Dash): (r: Dash)
    ensures r.showActivityForm
    ensures r.(showActivityForm := d.showActivityForm) == d
  {
    d.(showActivityForm := true)
  }

  /** The activity form's `onSuccess`: reload the list and close the form. */
  function ActivityFormSuccess(d: Dash, fetched: Result<seq<Activity>, string>): (r: Dash)
    ensures !r.showActivityForm
    ensures r.activities == LoadActivities(d, fetched).activities
    ensures r.error == LoadActivities(d, fetched).error
  {
    LoadActivities(d, fetched).(showActivityForm := false)
  }

  /**
   * The activity form's Cancel button as written: the form takes only an
   * `onSuccess` prop and its Cancel calls it, so the dashboard's `onCancel`
   * is never read and cancelling reloads the activities just as a
   * creation does.
   */
  function ActivityCancelAsWritten(d: Dash, fetched: Result<seq<Activity>, string>): (r: Dash)
    ensures !r.showActivityForm
    ensures r == ActivityFormSuccess(d, fetched)
    ensures fetched.Ok? ==> r.activities == fetched.value && r.error == d.error
    ensures fetched.Err? ==> r.activities == d.activities && r.error == Some(LoadActivitiesFailed)
  {
    ActivityFormSuccess(d, fetched)
  }

  /** As written, opening the activity form and cancelling it with a failing fetch raises the load banner. */
  lemma CancelRaisesLoadBanner(d: Dash, m: string)
    requires !d.showActivityForm && d.error.None?
    ensures ActivityCancelAsWritten(AddActivityClick(d), Err(m)).error == Some(LoadActivitiesFailed)
    ensures ActivityCancelAsWritten(AddActivityClick(d), Err(m)) != d
    ensures ActivityFormCancel(AddActivityClick(d)) == d
  {
  }

  /**
   * The dashboard's `onCancel`, which cancelling evidently should call:
   * close the form and change nothing else.
   */
  function ActivityFormCancel(d: Dash): (r: Dash)
    ensures !r.showActivityForm
    ensures r.(showActivityForm := d.showActivityForm) == d
  {
    d.(showActivityForm := false)
  }

  /** With the intended cancel, opening the activity form and cancelling it returns the dashboard to where it was. */
  lemma AddThenCancel(d: Dash)
    requires !d.showActivityForm
    ensures ActivityFormCancel(AddActivityClick(d)) == d
    ensures AddActivityClick(ActivityFormCancel(AddActivityClick(d))) == AddActivityClick(d)
  {
  }
}

=== FILE: enrollment.dfy ===
/**
 * The two-step enrollment wizard: student details, then course, grade and
 * schedule, then a simulated submission that ends on a success view from
 * which another student can be enrolled.
 */
module Enrollment {

  /** The wizard's state: the step shown, the six fields, and the two flags. */
  datatype Wizard = Wizard(
    step: int,
    name: string,
    email: string,
    phone: string,
    course: string,
    grade: string,
    schedule: string,
    submitting: bool,
    success: bool)

  /** The named fields of the form data. */
  datatype Field = Name | Email | Phone | Course | Grade | Schedule

  /** What the user can do; the two timers are the delayed end of a submission. */
  datatype Event =
    | Edit(field: Field, value: string)   // `handleChange` on a named input or select
    | ChooseCourse(index: nat)            // a click on one of the course cards
    | ChooseSchedule(index: nat)          // a click on one of the schedule cards
    | Next
    | Back
    | Submit
    | TimerFired
    | EnrollAnother

  const Courses: seq<string> := [
    "Mathematics (CBSE/ICSE)", "Science (Physics, Chemistry)", "Python Programming", "Graphic Design"]

  const Schedules: seq<string> := [
    "Weekday Morning (9AM-12PM)", "Weekday Afternoon (2PM-5PM)", "Weekend (10AM-2PM)", "Evening (6PM-9PM)"]

  const Initial := Wizard(1, "", "", "", "", "", "", false, false)

  function Get(w: Wizard, f: Field): string {
    match f
    case Name => w.name
    case Email => w.email
    case Phone => w.phone
    case Course => w.course
    case Grade => w.grade
    case Schedule => w.schedule
  }

  /** `setFormData(prev => ({ ...prev, [name]: value }))`: one field changes, nothing else. */
  function Set(w: Wizard, f: Field, value: string): (r: Wizard)
    ensures Get(r, f) == value
    ensures forall g :: g != f ==> Get(r, g) == Get(w, g)
    ensures r.step == w.step && r.submitting == w.submitting && r.success == w.success
  {
    match f
    case Name => w.(name := value)
    case Email => w.(email := value)
    case Phone => w.(phone := value)
    case Course => w.(course := value)
    case Grade => w.(grade := value)
    case Schedule => w.(schedule := value)
  }

  /** The grade select is shown, and required, for the two school subjects only. */
  predicate NeedsGrade(course: string) {
    course == Courses[0] || course == Courses[1]
  }

  predicate DetailsFilled(w: Wizard) {
    w.name != "" && w.email != "" && w.phone != ""
  }

  /** The check of `handleSubmit`: a course, and a grade when the course needs one. */
  predicate CanSubmit(w: Wizard) {
    w.course != "" && !(NeedsGrade(w.course) && w.grade == "")
  }

  /** `handleNext`: on step 1 all three details are needed; any other step just advances. */
  function HandleNext(w: Wizard): (r: Wizard)
    ensures w.step == 1 && !DetailsFilled(w) ==> r == w
    ensures w.step == 1 && DetailsFilled(w) ==> r == w.(step := 2)
    ensures w.step != 1 ==> r == w.(step := w.step + 1)
  {
    if w.step == 1 && !DetailsFilled(w) then w else w.(step := w.step + 1)
  }

  /** `handleSubmit`: rejected without a course or a needed grade; otherwise submitting starts. */
  function HandleSubmit(w: Wizard): (r: Wizard)
    ensures !CanSubmit(w) ==> r == w
    ensures CanSubmit(w) ==> r == w.(submitting := true)
  {
    if !CanSubmit(w) then w else w.(submitting := true)
  }

  /** The state after an event, as the handlers compute it. */
  function Apply(w: Wizard, e: Event): (r: Wizard)
    ensures e.Edit? ==> r == Set(w, e.field, e.value)
    ensures e == Back ==> r == w.(step := w.step - 1)
    ensures e == TimerFired ==> r == w.(submitting := false, success := true)
    ensures e == EnrollAnother ==> r == Initial.(submitting := w.submitting)
  {
    match e
    case Edit(f, v) => Set(w, f, v)
    case ChooseCourse(i) => if i < |Courses| then Set(w, Course, Courses[i]) else w
    case ChooseSchedule(i) => if i < |Schedules| then Set(w, Schedule, Schedules[i]) else w
    case Next => HandleNext(w)
    case Back => w.(step := w.step - 1)
    case Submit => HandleSubmit(w)
    case TimerFired => w.(submitting := false, success := true)
    case EnrollAnother => Initial.(submitting := w.submitting)
  }

  /** The events the rendered view offers. */
  predicate Enabled(w: Wizard, e: Event) {
    match e
    case TimerFired => w.submitting
    case EnrollAnother => w.success
    case Edit(f, _) =>
      !w.success && ((w.step == 1 && f in {Name, Email, Phone}) || (w.step == 2 && f == Grade && NeedsGrade(w.course)))
    case ChooseCourse(i) => !w.success && w.step == 2 && i < |Courses|
    case ChooseSchedule(i) => !w.success && w.step == 2 && i < |Schedules|
    case Next => !w.success && w.step == 1
    case Back => !w.success && w.step == 2
    case Submit => !w.success && w.step == 2 && !w.submitting
  }

  /** What every reachable state satisfies. */
  predicate Good(w: Wizard) {
    && 1 <= w.step <= 2
    && (w.success ==> !w.submitting)
    && (w.course == "" || w.course in Courses)
    && (w.schedule == "" || w.schedule in Schedules)
  }

  lemma InitialGood()
    ensures Good(Initial)
  {
  }

  /** Every offered event keeps the wizard on step 1 or 2 with consistent flags. */
  lemma EnabledPreservesGood(w: Wizard, e: Event)
    requires Good(w) && Enabled(w, e)
    ensures Good(Apply(w, e))
  {
  }

  /** Step 1 advances exactly when name, email and phone are all non-empty. */
  lemma NextNeedsDetails(w: Wizard)
    requires w.step == 1
    ensures Apply(w, Next).step == 2 <==> DetailsFilled(w)
    ensures !DetailsFilled(w) ==> Apply(w, Next) == w
  {
  }

  /** Submission needs a course, and a grade only for mathematics and science. */
  lemma SubmitRule(w: Wizard)
    ensures Apply(w, Submit).submitting <==> w.submitting || CanSubmit(w)
    ensures w.course == "" ==> Apply(w, Submit) == w
    ensures w.course != "" && !NeedsGrade(w.course) ==> Apply(w, Submit).submitting
    ensures NeedsGrade(w.course) && w.grade == "" ==> Apply(w, Submit) == w
  {
  }

  /** The schedule never affects whether a submission starts. */
  lemma ScheduleNeverRequired(w: Wizard, schedule: string)
    ensures Apply(w.(schedule := schedule), Submit) == Apply(w, Submit).(schedule := schedule)
  {
  }

  /** Choosing a course or schedule sets only that field. */
  lemma ChooseSetsOneField(w: Wizard, i: nat)
    requires i < 4
    ensures Apply(w, ChooseCourse(i)) == Set(w, Course, Courses[i])
    ensures Apply(w, ChooseSchedule(i)) == Set(w, Schedule, Schedules[i])
  {
  }

  /** From the success view, "Enroll Another Student" gives back the initial state. */
  lemma EnrollAnotherResets(w: Wizard)
    requires Good(w) && w.success
    ensures Apply(w, EnrollAnother) == Initial
  {
  }
}

=== FILE: html_number.dfy ===
/**
 * The browser's `<input type="number">` as the HTML Standard defines it:
 * the input's value is empty or a "valid floating-point number" (an
 * optional '-', digits with an optional fraction, an optional exponent),
 * and constraint validation compares that number with `min` and the
 * default step of 1, whose base is `min`. Values are kept exact, as a
 * mantissa times a power of ten.
 */
module HtmlNumber {
  import opened Wrappers
  import opened Js

  /** The number `mantissa * 10^scale`. */
  datatype Decimal = Decimal(mantissa: int, scale: int)

  function Pow10(n: nat): (p: nat)
    ensures p >= 1
  {
    if n == 0 then 1 else 10 * Pow10(n - 1)
  }

  /** The exponent part: nothing, or 'e'/'E', an optional sign and at least one digit. */
  function Exponent(c: string): (e: Option<int>)
  {
    if c == "" then Some(0)
    else if c[0] != 'e' && c[0] != 'E' then None
    else
      var d := c[1..];
      var negative := |d| > 0 && d[0] == '-';
      var digits := if |d| > 0 && (d[0] == '-' || d[0] == '+') then d[1..] else d;
      if |digits| > 0 && AllDigitsIn(digits, 10) then
        Some((if negative then -1 else 1) * ValueIn(digits, 10))
      else None
  }

  /**
   * A valid floating-point number and its value, or nothing for any other
   * text: an optional '-', then digits, a '.' followed by at least one
   * digit, or both, then the exponent part.
   */
  function ParseFloat(s: string): (r: Option<Decimal>)
    ensures r.Some? ==> s != "" && s[0] != '+'
  {
    var negative := |s| > 0 && s[0] == '-';
    var a := if negative then s[1..] else s;
    var whole := DigitPrefix(a, 10);
    var b := a[|whole|..];
    var dot := |b| > 0 && b[0] == '.';
    var fraction := if dot then DigitPrefix(b[1..], 10) else "";
    var c := if dot then b[1 + |fraction|..] else b;
    if dot && fraction == "" then None
    else if whole == "" && fraction == "" then None
    else
      match Exponent(c)
      case None => None
      case Some(e) =>
        assert AllDigitsIn(whole + fraction, 10) by {
          assert forall i :: 0 <= i < |whole + fraction| ==>
            (whole + fraction)[i] == (if i < |whole| then whole[i] else fraction[i - |whole|]);
        }
        Some(Decimal((if negative then -1 else 1) * ValueIn(whole + fraction, 10), e - |fraction|))
  }

  /** The number is an integer. */
  predicate IsWhole(d: Decimal) {
    d.scale >= 0 || d.mantissa % Pow10(-d.scale) == 0
  }

  /** The integer a whole number equals. */
  function WholeValue(d: Decimal): (v: int)
    requires IsWhole(d)
    ensures d.scale >= 0 ==> v == d.mantissa * Pow10(d.scale)
    ensures d.scale < 0 ==> v * Pow10(-d.scale) == d.mantissa
  {
    if d.scale >= 0 then d.mantissa * Pow10(d.scale) else d.mantissa / Pow10(-d.scale)
  }

  /**
   * A non-empty value that suffers neither a range underflow below `min`
   * nor a step mismatch against step 1 based at `min`: a whole number no
   * smaller than `min`. Text that is not a valid floating-point number
   * never reaches the form, because the browser empties the value.
   */
  predicate AllowsAtLeast(text: string, min: int): (b: bool)
    ensures b ==> text != "" && text[0] != '+'
    ensures text == "" ==> !b
  {
    ParseFloat(text).Some? && IsWhole(ParseFloat(text).value) && WholeValue(ParseFloat(text).value) >= min
  }

  /** The number an allowed input holds (its `valueAsNumber`). */
  function InputValue(text: string, min: int): (v: int)
    requires AllowsAtLeast(text, min)
    ensures v >= min
  {
    WholeValue(ParseFloat(text).value)
  }

  /** Plain integer text parses to the integer it denotes. */
  lemma ParseFloatOfInteger(s: string)
    requires IsSignedDecimal(s) && s[0] != '+'
    ensures ParseFloat(s) == Some(Decimal(SignedValue(s), 0))
  {
    var a := SignedBody(s);
    DigitPrefixOfDigits(a, "", 10);
    assert a + "" == a;
  }

  /** For plain integer text, the input allows exactly the values at least `min`. */
  lemma AllowsInteger(s: string, min: int)
    requires IsSignedDecimal(s) && s[0] != '+'
    ensures AllowsAtLeast(s, min) <==> SignedValue(s) >= min
    ensures AllowsAtLeast(s, min) ==> InputValue(s, min) == SignedValue(s)
  {
    ParseFloatOfInteger(s);
  }

  /** Exponent forms the input accepts with min 1: "0.5e1" is 5, "1e1" is 10, ".5e1" is 5. */
  lemma ExponentForms()
    ensures AllowsAtLeast("0.5e1", 1) && InputValue("0.5e1", 1) == 5
    ensures AllowsAtLeast("1e1", 1) && InputValue("1e1", 1) == 10
    ensures AllowsAtLeast(".5e1", 1) && InputValue(".5e1", 1) == 5
  {
    ParseFractionExponent();
    HoldsWhole("0.5e1", Decimal(5, 0), 1);
    ParseExponent();
    HoldsWhole("1e1", Decimal(1, 1), 1);
    ParseLeadingDot();
    HoldsWhole(".5e1", Decimal(5, 0), 1);
  }

  /** Text that parses to a whole number of at least `min` is allowed and holds that number. */
  lemma HoldsWhole(text: string, d: Decimal, min: int)
    requires ParseFloat(text) == Some(d) && IsWhole(d) && WholeValue(d) >= min
    ensures AllowsAtLeast(text, min) && InputValue(text, min) == WholeValue(d)
  {
  }

  lemma ExponentOne()
    ensures Exponent("e1") == Some(1)
  {
    assert "e1"[1..] == "1";
  }

  lemma ParseFractionExponent()
    ensures ParseFloat("0.5e1") == Some(Decimal(5, 0))
  {
    assert DigitPrefix("0.5e1", 10) == "0";
    assert ("0.5e1")[1..] == ".5e1";
    assert ".5e1"[1..] == "5e1" && ".5e1"[2..] == "e1";
    assert DigitPrefix("5e1", 10) == "5";
    assert "0" + "5" == "05";
    assert ValueIn("05", 10) == 5;
    ExponentOne();
  }

  lemma ParseExponent()
    ensures ParseFloat("1e1") == Some(Decimal(1, 1))
  {
    assert DigitPrefix("1e1", 10) == "1";
    assert "1e1"[1..] == "e1";
    assert "1" + "" == "1";
    ExponentOne();
  }

  lemma ParseLeadingDot()
    ensures ParseFloat(".5e1") == Some(Decimal(5, 0))
  {
    var s := ".5e1";
    assert s[0] == '.' && s[0] != '-';
    assert DigitPrefix(s, 10) == "";
    assert s[0..] == s;
    assert s[1..] == "5e1" && s[2..] == "e1";
    assert DigitPrefix("5e1", 10) == "5";
    assert "" + "5" == "5";
    assert ValueIn("5", 10) == 5;
    ExponentOne();
  }
}

=== FILE: js.dfy ===
/**
 * The ECMAScript built-ins the site's code leans on, restated over Dafny
 * strings: truthiness of optional strings, `||` defaults,
 * `String.prototype.trim`, `split`/`join` on a one-character separator,
 * `parseInt` with the default radix, a restricted `Number`, decimal
 * `toString`, `repeat` and the UTF-16 `length`.
 */
module Js {
  import opened Wrappers

  /** True when an optional string is truthy: present and non-empty. */
  predicate Present(o: Option<string>) {
    o.Some? && o.value != ""
  }

  /** `s || fallback` for a string `s`. */
  function Or(s: string, fallback: string): (r: string)
    ensures r == "" ==> fallback == ""
    ensures s != "" ==> r == s
  {
    if s != "" then s else fallback
  }

  /** `o || null` for an optional string: falsy values become absent. */
  function OrNull(o: Option<string>): (r: Option<string>)
    ensures r.Some? <==> Present(o)
    ensures r.Some? ==> r == o
  {
    if Present(o) then o else None
  }

  // ---------------------------------------------------------------------
  // Whitespace and trim (ECMA-262, sections 12.2, 12.3 and 22.1.3.30)
  // ---------------------------------------------------------------------

  /** The WhiteSpace and LineTerminator code points. */
  predicate IsWhiteSpace(c: char) {
    || c == '\t' || c == '\n' || c == '\U{000B}' || c == '\U{000C}' || c == '\r'
    || c == ' ' || c == '\U{00A0}' || c == '\U{1680}' || ('\U{2000}' <= c <= '\U{200A}')
    || c == '\U{2028}' || c == '\U{2029}' || c == '\U{202F}' || c == '\U{205F}'
    || c == '\U{3000}' || c == '\U{FEFF}'
  }

  predicate AllWhiteSpace(s: string) {
    forall i :: 0 <= i < |s| ==> IsWhiteSpace(s[i])
  }

  /** Neither end of `s` is whitespace. */
  predicate IsTrimmed(s: string) {
    s == "" || (!IsWhiteSpace(s[0]) && !IsWhiteSpace(s[|s| - 1]))
  }

  /** How many whitespace characters `s` starts with. */
  function LeadingSpace(s: string): (n: nat)
    ensures n <= |s|
    ensures forall i :: 0 <= i < n ==> IsWhiteSpace(s[i])
    ensures n < |s| ==> !IsWhiteSpace(s[n])
  {
    if |s| > 0 && IsWhiteSpace(s[0]) then 1 + LeadingSpace(s[1..]) else 0
  }

  /** The length of `s` once its trailing whitespace is dropped. */
  function TrailingStart(s: string): (n: nat)
    ensures n <= |s|
    ensures forall i :: n <= i < |s| ==> IsWhiteSpace(s[i])
    ensures n > 0 ==> !IsWhiteSpace(s[n - 1])
  {
    if |s| > 0 && IsWhiteSpace(s[|s| - 1]) then TrailingStart(s[..|s| - 1]) else |s|
  }

  /** `s` with its leading whitespace removed. */
  function TrimStart(s: string): string {
    s[LeadingSpace(s)..]
  }

  /**
   * `String.prototype.trim`: the input with its leading and trailing
   * whitespace removed, and nothing else.
   */
  function Trim(s: string): (r: string)
    ensures exists i, j :: 0 <= i <= j <= |s| && r == s[i..j] && AllWhiteSpace(s[..i]) && AllWhiteSpace(s[j..])
    ensures IsTrimmed(r)
    ensures forall c :: c in r ==> c in s
    ensures r == "" <==> AllWhiteSpace(s)
    ensures IsTrimmed(s) ==> r == s
  {
    var a := LeadingSpace(s);
    var b := TrailingStart(s[a..]);
    TrimmedPart(s, a, b);
    TrimEmptyPart(s, a, b);
    TrimUntrimmedPart(s, a, b);
    TrimOnlyEnds(s, a, b);
    s[a..][..b]
  }

  /** Trim keeps one stretch of the input and drops only whitespace on either side of it. */
  lemma TrimOnlyEnds(s: string, a: nat, b: nat)
    requires a == LeadingSpace(s) && b == TrailingStart(s[a..])
    ensures exists i, j :: 0 <= i <= j <= |s| && s[a..][..b] == s[i..j] && AllWhiteSpace(s[..i]) && AllWhiteSpace(s[j..])
  {
    WhitePrefix(s, a);
    TrailingPart(s, a, b);
    assert s[a..][..b] == s[a..a + b];
    Stretch(s, a, a + b);
  }

  /** The whitespace after trim's stretch, seen from the whole input. */
  lemma TrailingPart(s: string, a: nat, b: nat)
    requires a <= |s| && b <= |s| - a
    requires forall i :: b <= i < |s[a..]| ==> IsWhiteSpace(s[a..][i])
    ensures AllWhiteSpace(s[a + b..])
  {
    var t := s[a..];
    WhiteSuffix(t, b);
    assert s[a + b..] == t[b..];
  }

  lemma Stretch(s: string, i: nat, j: nat)
    requires i <= j <= |s| && AllWhiteSpace(s[..i]) && AllWhiteSpace(s[j..])
    ensures exists i', j' :: 0 <= i' <= j' <= |s| && s[i..j] == s[i'..j'] && AllWhiteSpace(s[..i']) && AllWhiteSpace(s[j'..])
  {
  }

  lemma WhitePrefix(s: string, n: nat)
    requires n <= |s| && forall i :: 0 <= i < n ==> IsWhiteSpace(s[i])
    ensures AllWhiteSpace(s[..n])
  {
    assert forall i :: 0 <= i < n ==> s[..n][i] == s[i];
  }

  lemma WhiteSuffix(s: string, n: nat)
    requires n <= |s| && forall i :: n <= i < |s| ==> IsWhiteSpace(s[i])
    ensures AllWhiteSpace(s[n..])
  {
    assert forall i :: 0 <= i < |s| - n ==> s[n..][i] == s[n + i];
  }

  /** The middle part left by trim starts and ends with non-whitespace. */
  lemma TrimmedPart(s: string, a: nat, b: nat)
    requires a == LeadingSpace(s) && b == TrailingStart(s[a..])
    ensures IsTrimmed(s[a..][..b])
    ensures forall c :: c in s[a..][..b] ==> c in s
  {
    var t := s[a..];
    if b > 0 {
      assert t[0] == s[a];
    }
    assert forall i :: 0 <= i < b ==> t[..b][i] == s[a + i];
  }

  /** Trim leaves nothing exactly when every character is whitespace. */
  lemma TrimEmptyPart(s: string, a: nat, b: nat)
    requires a == LeadingSpace(s) && b == TrailingStart(s[a..])
    ensures s[a..][..b] == "" <==> AllWhiteSpace(s)
  {
    var t := s[a..];
    if a < |s| {
      assert t[0] == s[a];
      assert b > 0;
    }
  }

  /** Trim leaves an already trimmed string alone. */
  lemma TrimUntrimmedPart(s: string, a: nat, b: nat)
    requires a == LeadingSpace(s) && b == TrailingStart(s[a..])
    ensures IsTrimmed(s) ==> s[a..][..b] == s
  {
    if IsTrimmed(s) && s != "" {
      assert a == 0;
      assert s[a..] == s;
    }
  }

  // ---------------------------------------------------------------------
  // split and join on a one-character separator (sections 22.1.3.23, 23.1.3.18)
  // ---------------------------------------------------------------------

  /** `s.split(sep)`: the pieces between occurrences of `sep`. */
  function Split(s: string, sep: char): (r: seq<string>)
    ensures |r| >= 1
    ensures forall i :: 0 <= i < |r| ==> sep !in r[i]
  {
    if |s| == 0 then [""]
    else
      var rest := Split(s[1..], sep);
      if s[0] == sep then [""] + rest
      else [[s[0]] + rest[0]] + rest[1..]
  }

  /** `xs.join(sep)`. */
  function Join(xs: seq<string>, sep: char): string {
    if |xs| == 0 then ""
    else if |xs| == 1 then xs[0]
    else xs[0] + [sep] + Join(xs[1..], sep)
  }

  /** Joining the pieces of a split gives back the original string. */
  lemma {:induction false} JoinSplit(s: string, sep: char)
    ensures Join(Split(s, sep), sep) == s
  {
    if |s| > 0 {
      var rest := Split(s[1..], sep);
      JoinSplit(s[1..], sep);
      if s[0] == sep {
        assert Split(s, sep) == [""] + rest;
        assert s == [s[0]] + s[1..];
      } else {
        var r := Split(s, sep);
        assert r == [[s[0]] + rest[0]] + rest[1..];
        if |rest| == 1 {
          assert s == [s[0]] + s[1..];
        } else {
          assert rest == [rest[0]] + rest[1..];
          assert Join(rest, sep) == rest[0] + [sep] + Join(rest[1..], sep);
          assert r[1..] == rest[1..];
          assert s == [s[0]] + s[1..];
        }
      }
    }
  }

  /** A string without the separator splits into itself. */
  lemma {:induction false} SplitWithoutSeparator(s: string, sep: char)
    requires sep !in s
    ensures Split(s, sep) == [s]
  {
    if |s| > 0 {
      SplitWithoutSeparator(s[1..], sep);
      assert s == [s[0]] + s[1..];
    }
  }

  /** A leading separator contributes an empty first piece. */
  lemma SplitConsSeparator(t: string, sep: char)
    ensures Split([sep] + t, sep) == [""] + Split(t, sep)
  {
    assert ([sep] + t)[1..] == t;
  }

  /** Any other leading character joins the first piece. */
  lemma SplitConsOther(c: char, t: string, sep: char)
    requires c != sep
    ensures Split([c] + t, sep) == [[c] + Split(t, sep)[0]] + Split(t, sep)[1..]
  {
    assert ([c] + t)[1..] == t;
  }

  /** Split distributes over a separator placed between two strings. */
  lemma {:induction false} SplitAround(a: string, b: string, sep: char)
    ensures Split(a + [sep] + b, sep) == Split(a, sep) + Split(b, sep)
  {
    if |a| == 0 {
      assert a + [sep] + b == [sep] + b;
      SplitConsSeparator(b, sep);
    } else {
      var a' := a[1..];
      SplitAround(a', b, sep);
      SplitAroundStep(a[0], a', b, sep);
      assert a == [a[0]] + a';
    }
  }

  /** One step of SplitAround: put a character in front of the left part. */
  lemma SplitAroundStep(c: char, a: string, b: string, sep: char)
    requires Split(a + [sep] + b, sep) == Split(a, sep) + Split(b, sep)
    ensures Split([c] + a + [sep] + b, sep) == Split([c] + a, sep) + Split(b, sep)
  {
    var tail := a + [sep] + b;
    assert [c] + a + [sep] + b == [c] + tail;
    if c == sep {
      SplitConsSeparator(tail, sep);
      SplitConsSeparator(a, sep);
    } else {
      SplitConsOther(c, tail, sep);
      SplitConsOther(c, a, sep);
      ExtendFirstPiece([c], Split(a, sep), Split(b, sep));
    }
  }

  /** Extending the first piece of `xs + ys` extends the first piece of `xs`. */
  lemma ExtendFirstPiece(p: string, xs: seq<string>, ys: seq<string>)
    requires |xs| >= 1
    ensures [p + (xs + ys)[0]] + (xs + ys)[1..] == [p + xs[0]] + xs[1..] + ys
  {
    assert (xs + ys)[0] == xs[0];
    assert (xs + ys)[1..] == xs[1..] + ys;
  }

  /** The last piece of a split. */
  function LastPiece(s: string, sep: char): (p: string)
    ensures sep !in p
  {
    var r := Split(s, sep);
    r[|r| - 1]
  }

  /** `p` ends `s`, and is the whole of `s` or preceded by `sep`. */
  predicate IsTail(s: string, p: string, sep: char) {
    && |p| <= |s| && p == s[|s| - |p|..]
    && (|p| < |s| ==> s[|s| - |p| - 1] == sep)
  }

  /** A tail of `s[1..]` is a tail of `s` unless it is the whole of it after a non-separator. */
  lemma IsTailCons(s: string, p: string, sep: char)
    requires |s| > 0 && IsTail(s[1..], p, sep)
    requires |p| < |s| - 1 || s[0] == sep
    ensures IsTail(s, p, sep)
  {
    assert s[|s| - |p|..] == s[1..][|s| - 1 - |p|..];
    if |p| < |s| - 1 {
      assert s[|s| - |p| - 1] == s[1..][|s| - 1 - |p| - 1];
    }
  }

  /**
   * The last piece of a split is the text after the last separator: a
   * suffix of the string, preceded by the separator unless it is the whole
   * string, and the whole string only when there is just one piece.
   */
  lemma {:induction false} LastPieceIsSuffix(s: string, sep: char)
    ensures IsTail(s, LastPiece(s, sep), sep)
    ensures |Split(s, sep)| > 1 ==> |LastPiece(s, sep)| < |s|
  {
    if |s| > 0 {
      var t := s[1..];
      LastPieceIsSuffix(t, sep);
      LastPieceCons(s, sep);
      if s[0] == sep || |Split(t, sep)| > 1 {
        IsTailCons(s, LastPiece(t, sep), sep);
      } else {
        SinglePieceIsWhole(t, sep);
        assert s == [s[0]] + t;
      }
    }
  }

  /** How the first character of `s` affects the last piece. */
  lemma LastPieceCons(s: string, sep: char)
    requires |s| > 0
    ensures s[0] == sep || |Split(s[1..], sep)| > 1 ==>
              |Split(s, sep)| > 1 && LastPiece(s, sep) == LastPiece(s[1..], sep)
    ensures s[0] != sep && |Split(s[1..], sep)| == 1 ==>
              |Split(s, sep)| == 1 && LastPiece(s, sep) == [s[0]] + LastPiece(s[1..], sep)
  {
  }

  /** A string that splits into one piece is that piece. */
  lemma SinglePieceIsWhole(s: string, sep: char)
    requires |Split(s, sep)| == 1
    ensures LastPiece(s, sep) == s
  {
    JoinSplit(s, sep);
  }

  /** Only the text after the last separator matters for the last piece. */
  lemma LastPieceAfter(a: string, b: string, sep: char)
    ensures LastPiece(a + [sep] + b, sep) == LastPiece(b, sep)
  {
    SplitAround(a, b, sep);
    var ra := Split(a, sep);
    var rb := Split(b, sep);
    assert (ra + rb)[|ra + rb| - 1] == rb[|rb| - 1];
  }

  /** Splitting a join gives back the pieces when none holds the separator. */
  lemma {:induction false} SplitJoin(xs: seq<string>, sep: char)
    requires |xs| >= 1
    requires forall i :: 0 <= i < |xs| ==> sep !in xs[i]
    ensures Split(Join(xs, sep), sep) == xs
  {
    SplitWithoutSeparator(xs[0], sep);
    if |xs| > 1 {
      SplitJoin(xs[1..], sep);
      SplitAround(xs[0], Join(xs[1..], sep), sep);
      assert xs == [xs[0]] + xs[1..];
    }
  }

  // ---------------------------------------------------------------------
  // Digits, parseInt and Number
  // ---------------------------------------------------------------------

  /** A number as the site's code sees it: an integer or NaN. */
  datatype Num = NaN | Int(value: int)

  predicate IsDigitIn(c: char, radix: nat)
    requires radix == 10 || radix == 16
  {
    ('0' <= c <= '9') || (radix == 16 && (('a' <= c <= 'f') || ('A' <= c <= 'F')))
  }

  function DigitValue(c: char, radix: nat): (d: nat)
    requires radix == 10 || radix == 16
    requires IsDigitIn(c, radix)
    ensures d < radix
  {
    if '0' <= c <= '9' then c as int - '0' as int
    else if 'a' <= c <= 'f' then c as int - 'a' as int + 10
    else c as int - 'A' as int + 10
  }

  predicate AllDigitsIn(s: string, radix: nat)
    requires radix == 10 || radix == 16
  {
    forall i :: 0 <= i < |s| ==> IsDigitIn(s[i], radix)
  }

  /** The integer a string of digits denotes in the given radix. */
  function ValueIn(s: string, radix: nat): nat
    requires radix == 10 || radix == 16
    requires AllDigitsIn(s, radix)
  {
    if |s| == 0 then 0
    else ValueIn(s[..|s| - 1], radix) * radix + DigitValue(s[|s| - 1], radix)
  }

  /** The longest prefix of `s` made of digits in the radix. */
  function DigitPrefix(s: string, radix: nat): (p: string)
    requires radix == 10 || radix == 16
    ensures |p| <= |s| && p == s[..|p|]
    ensures AllDigitsIn(p, radix)
    ensures |p| < |s| ==> !IsDigitIn(s[|p|], radix)
  {
    if |s| > 0 && IsDigitIn(s[0], radix) then [s[0]] + DigitPrefix(s[1..], radix) else ""
  }

  /** True when `s` starts with "0x" or "0X". */
  predicate HasHexPrefix(s: string) {
    |s| >= 2 && s[0] == '0' && (s[1] == 'x' || s[1] == 'X')
  }

  /**
   * The digits `parseInt` reads once whitespace and sign are gone: a
   * "0x"/"0X" prefix selects radix 16, otherwise radix 10, and the longest
   * digit prefix is taken; no digits gives nothing.
   */
  function ReadMagnitude(u: string): (m: Option<nat>)
    ensures m.Some? ==> u != "" && '0' <= u[0] <= '9'
  {
    var radix := if HasHexPrefix(u) then 16 else 10;
    var body := if HasHexPrefix(u) then u[2..] else u;
    var z := DigitPrefix(body, radix);
    if z == "" then None else Some(ValueIn(z, radix))
  }

  /**
   * `parseInt(input)` with the radix argument omitted (ECMA-262, section
   * 19.2.5): leading whitespace is skipped, one sign is taken, then the
   * magnitude is read; no digits gives NaN. `-0` is the integer 0 here.
   */
  function ParseInt(input: string): (r: Num)
    ensures r.Int? ==> exists i :: 0 <= i < |input| && '0' <= input[i] <= '9'
  {
    var s := TrimStart(input);
    assert forall i :: 0 <= i < |s| ==> s[i] == input[i + LeadingSpace(input)];
    ParseSigned(s)
  }

  /** `parseInt` once leading whitespace is gone: one sign, then the magnitude. */
  function ParseSigned(s: string): (r: Num)
    ensures r.Int? ==> exists i :: 0 <= i < |s| && '0' <= s[i] <= '9'
  {
    var sign := if |s| > 0 && s[0] == '-' then -1 else 1;
    var u := if |s| > 0 && (s[0] == '-' || s[0] == '+') then s[1..] else s;
    match ReadMagnitude(u)
    case None => NaN
    case Some(m) =>
      assert u[0] in s;
      Int(sign * m)
  }

  /** Leading whitespace does not change what `parseInt` reads. */
  lemma {:induction false} ParseIntSkipsWhiteSpace(w: string, s: string)
    requires AllWhiteSpace(w)
    ensures ParseInt(w + s) == ParseInt(s)
  {
    TrimStartSkips(w, s);
  }

  lemma {:induction false} LeadingSpaceSkips(w: string, s: string)
    requires AllWhiteSpace(w)
    ensures LeadingSpace(w + s) == |w| + LeadingSpace(s)
  {
    if |w| > 0 {
      assert (w + s)[1..] == w[1..] + s;
      LeadingSpaceSkips(w[1..], s);
    } else {
      assert w + s == s;
    }
  }

  lemma TrimStartSkips(w: string, s: string)
    requires AllWhiteSpace(w)
    ensures TrimStart(w + s) == TrimStart(s)
  {
    LeadingSpaceSkips(w, s);
    assert (w + s)[|w| + LeadingSpace(s)..] == s[LeadingSpace(s)..];
  }

  /** A string that is an optional sign followed by at least one decimal digit. */
  predicate IsSignedDecimal(s: string) {
    |SignedBody(s)| > 0 && AllDigitsIn(SignedBody(s), 10)
  }

  /**
   * `Number(s)` on the strings the forms produce: surrounding whitespace is
   * ignored, the empty string is 0, an optional sign followed by decimal
   * digits is that integer; every other string is read as NaN.
   */
  function Number(s: string): (r: Num)
    ensures Trim(s) == "" ==> r == Int(0)
    ensures Trim(s) != "" ==> (r.Int? <==> IsSignedDecimal(Trim(s)))
  {
    var t := Trim(s);
    if t == "" then Int(0)
    else
      var sign := if t[0] == '-' then -1 else 1;
      var body := if t[0] == '-' || t[0] == '+' then t[1..] else t;
      if |body| > 0 && AllDigitsIn(body, 10) then Int(sign * ValueIn(body, 10)) else NaN
  }

  // ---------------------------------------------------------------------
  // Decimal rendering (Number.prototype.toString for integers)
  // ---------------------------------------------------------------------

  function DigitChar(d: nat): (c: char)
    requires d < 10
    ensures IsDigitIn(c, 10) && DigitValue(c, 10) == d
  {
    ('0' as int + d) as char
  }

  /** The decimal digits of a natural number, without leading zeros. */
  function NatString(n: nat): (s: string)
    ensures |s| >= 1
    ensures AllDigitsIn(s, 10)
    ensures ValueIn(s, 10) == n
  {
    if n < 10 then [DigitChar(n)]
    else
      var s := NatString(n / 10) + [DigitChar(n % 10)];
      assert s[..|s| - 1] == NatString(n / 10);
      s
  }

  /** `String(n)` for an integer `n`. */
  function IntString(n: int): (s: string)
    ensures |s| >= 1
  {
    if n < 0 then "-" + NatString(-n) else NatString(n)
  }

  /** Reading digits followed by more digits extends the prefix. */
  lemma {:induction false} DigitPrefixOfDigits(a: string, rest: string, radix: nat)
    requires radix == 10 || radix == 16
    requires AllDigitsIn(a, radix)
    requires rest == "" || !IsDigitIn(rest[0], radix)
    ensures DigitPrefix(a + rest, radix) == a
  {
    if |a| > 0 {
      DigitPrefixOfDigits(a[1..], rest, radix);
      assert (a + rest)[1..] == a[1..] + rest;
      assert a == [a[0]] + a[1..];
    } else {
      assert a + rest == rest;
    }
  }

  /** The magnitude read from a decimal rendering followed by a non-digit. */
  lemma ReadMagnitudeOfNatString(m: nat, rest: string)
    requires rest == "" || (!IsDigitIn(rest[0], 10) && rest[0] != 'x' && rest[0] != 'X')
    ensures ReadMagnitude(NatString(m) + rest) == Some(m)
  {
    var digits := NatString(m);
    var u := digits + rest;
    assert !HasHexPrefix(u) by {
      if |digits| >= 2 { assert u[1] == digits[1]; }
    }
    DigitPrefixOfDigits(digits, rest, 10);
  }

  /** The digits after the optional sign. */
  function SignedBody(s: string): string {
    if |s| > 0 && (s[0] == '-' || s[0] == '+') then s[1..] else s
  }

  /** The integer an optional sign followed by decimal digits denotes. */
  function SignedValue(s: string): int
    requires IsSignedDecimal(s)
  {
    (if s[0] == '-' then -1 else 1) * ValueIn(SignedBody(s), 10)
  }

  /** On an optional sign followed by decimal digits, `parseInt` and `Number` agree. */
  lemma ParseIntAgreesWithNumber(s: string)
    requires IsSignedDecimal(s)
    ensures ParseInt(s) == Number(s) == Int(SignedValue(s))
  {
    ParseIntOfSignedDecimal(s);
    NumberOfSignedDecimal(s);
  }

  lemma ReadMagnitudeOfDigits(body: string)
    requires |body| > 0 && AllDigitsIn(body, 10)
    ensures ReadMagnitude(body) == Some(ValueIn(body, 10))
  {
    assert !HasHexPrefix(body) by {
      if |body| >= 2 { assert IsDigitIn(body[1], 10); }
    }
    DigitPrefixOfDigits(body, "", 10);
    assert body + "" == body;
  }

  lemma ParseIntOfSignedDecimal(s: string)
    requires IsSignedDecimal(s)
    ensures ParseInt(s) == Int(SignedValue(s))
  {
    NotWhiteSpaceFirst(s);
    ReadMagnitudeOfDigits(SignedBody(s));
  }

  lemma NumberOfSignedDecimal(s: string)
    requires IsSignedDecimal(s)
    ensures Number(s) == Int(SignedValue(s))
  {
    var body := SignedBody(s);
    assert s[|s| - 1] == body[|body| - 1];
    assert IsTrimmed(s);
  }

  /**
   * `parseInt` reads back the decimal rendering of every integer, and stops
   * at the first character that is neither a digit nor an 'x'.
   */
  lemma ParseIntOfIntString(n: int, rest: string)
    requires rest == "" || (!IsDigitIn(rest[0], 10) && rest[0] != 'x' && rest[0] != 'X')
    ensures ParseInt(IntString(n) + rest) == Int(n)
  {
    if n < 0 {
      ParseIntOfNegative(-n, rest);
    } else {
      ParseIntOfNatural(n, rest);
    }
  }

  lemma ParseIntOfNatural(m: nat, rest: string)
    requires rest == "" || (!IsDigitIn(rest[0], 10) && rest[0] != 'x' && rest[0] != 'X')
    ensures ParseInt(NatString(m) + rest) == Int(m)
  {
    var input := NatString(m) + rest;
    ReadMagnitudeOfNatString(m, rest);
    assert input[0] == NatString(m)[0];
    NotWhiteSpaceFirst(input);
  }

  lemma ParseIntOfNegative(m: nat, rest: string)
    requires m > 0
    requires rest == "" || (!IsDigitIn(rest[0], 10) && rest[0] != 'x' && rest[0] != 'X')
    ensures ParseInt("-" + NatString(m) + rest) == Int(-(m as int))
  {
    var u := NatString(m) + rest;
    ReadMagnitudeOfNatString(m, rest);
    assert "-" + NatString(m) + rest == ['-'] + u;
    NotWhiteSpaceFirst(['-'] + u);
    SignedNegative(u, m);
  }

  lemma NotWhiteSpaceFirst(s: string)
    requires s != "" && (s[0] == '-' || s[0] == '+' || '0' <= s[0] <= '9')
    ensures ParseInt(s) == ParseSigned(s)
  {
    assert !IsWhiteSpace(s[0]);
    assert LeadingSpace(s) == 0;
  }

  lemma SignedNegative(u: string, m: nat)
    requires ReadMagnitude(u) == Some(m)
    ensures ParseSigned(['-'] + u) == Int(-(m as int))
  {
    assert (['-'] + u)[1..] == u;
  }

  /** `Number` reads back the decimal rendering of every integer. */
  lemma NumberOfIntString(n: int)
    ensures Number(IntString(n)) == Int(n)
  {
    var s := IntString(n);
    if n < 0 {
      var d := NatString(-n);
      assert s[1..] == d && s[0] == '-';
      assert !IsWhiteSpace(d[|d| - 1]) by { assert IsDigitIn(d[|d| - 1], 10); }
      assert s[|s| - 1] == d[|d| - 1];
    } else {
      assert !IsWhiteSpace(s[0]) by { assert IsDigitIn(s[0], 10); }
      assert !IsWhiteSpace(s[|s| - 1]) by { assert IsDigitIn(s[|s| - 1], 10); }
    }
    assert IsTrimmed(s);
    assert Trim(s) == s;
  }

  // ---------------------------------------------------------------------
  // repeat and UTF-16 length
  // ---------------------------------------------------------------------

  /** `c.repeat(n)` for a one-character string `c`. */
  function Repeat(c: char, n: nat): (r: string)
    ensures |r| == n
    ensures forall i :: 0 <= i < n ==> r[i] == c
  {
    if n == 0 then "" else [c] + Repeat(c, n - 1)
  }

  /** `s.length`: code points above U+FFFF take two UTF-16 code units. */
  function Utf16Length(s: string): (n: nat)
    ensures |s| <= n <= 2 * |s|
  {
    if |s| == 0 then 0
    else (if s[0] as int > 0xFFFF then 2 else 1) + Utf16Length(s[1..])
  }
}

=== FILE: storage.dfy ===
/**
 * `uploadImage`: the object path an activity image is stored under, the
 * upload request, and its outcomes against a bucket that never
 * overwrites.
 */
module Storage {
  import opened Wrappers
  import opened Js

  /** A file chosen in the browser; its bytes are not modelled. */
  datatype ImageFile = ImageFile(name: string, mime: string, size: nat)

  /** The upload request: where, with which content type, and whether to overwrite. */
  datatype Upload = Upload(path: string, contentType: string, upsert: bool)

  const Folder := "activity-images/"
  const UploadFailed := "Failed to upload image"
  const UrlFailed := "Failed to get image URL"

  /** `file.name.split('.').pop()`: the text after the last '.', or the whole name. */
  function Extension(name: string): (ext: string)
    ensures '.' !in ext
    ensures '.' !in name ==> ext == name
    ensures IsTail(name, ext, '.')
  {
    LastPieceIsSuffix(name, '.');
    LastPieceWithoutDot(name);
    LastPiece(name, '.')
  }

  lemma LastPieceWithoutDot(name: string)
    ensures '.' !in name ==> LastPiece(name, '.') == name
  {
    if '.' !in name {
      SplitWithoutSeparator(name, '.');
    }
  }

  /** A name with a '.' has an extension shorter than itself. */
  lemma ExtensionOfDottedName(name: string)
    requires '.' in name
    ensures |Extension(name)| < |name|
    ensures name[|name| - |Extension(name)| - 1] == '.'
  {
    var ext := Extension(name);
    assert name[|name| - |ext|..] == ext;
    assert name[0..] == name;
  }

  /**
   * `activity-images/<timestamp>.<ext>`, the timestamp in decimal: after
   * the folder there is exactly one '.', with the timestamp's digits before
   * it and the chosen file's extension after it.
   */
  function ImagePath(stamp: nat, name: string): (path: string)
    ensures |path| > |Folder| && path[..|Folder|] == Folder
    ensures Split(path[|Folder|..], '.') == [NatString(stamp), Extension(name)]
    ensures Extension(path) == Extension(name)
  {
    var digits := NatString(stamp);
    var ext := Extension(name);
    NoDotInDigits(stamp);
    DotParts(Folder, digits, ext);
    Folder + digits + "." + ext
  }

  /** Decimal digits hold no '.'. */
  lemma NoDotInDigits(n: nat)
    ensures '.' !in NatString(n)
  {
    var s := NatString(n);
    assert forall i :: 0 <= i < |s| ==> s[i] != '.';
  }

  /** Joining two dot-free parts with one '.' after a prefix: the parts split back out and the last is the extension. */
  lemma DotParts(prefix: string, d: string, e: string)
    requires '.' !in d && '.' !in e
    ensures (prefix + d + "." + e)[|prefix|..] == d + "." + e
    ensures Split(d + "." + e, '.') == [d, e]
    ensures LastPiece(prefix + d + "." + e, '.') == e
  {
    assert (prefix + d + "." + e)[|prefix|..] == d + "." + e;
    SplitAround(d, e, '.');
    SplitWithoutSeparator(d, '.');
    SplitWithoutSeparator(e, '.');
    assert prefix + d + "." + e == (prefix + d) + ['.'] + e;
    LastPieceAfter(prefix + d, e, '.');
  }

  /** Two uploads share a path only when their timestamps and extensions agree. */
  lemma ImagePathInjective(s1: nat, n1: string, s2: nat, n2: string)
    requires ImagePath(s1, n1) == ImagePath(s2, n2)
    ensures s1 == s2 && Extension(n1) == Extension(n2)
  {
    var parts1 := Split(ImagePath(s1, n1)[|Folder|..], '.');
    var parts2 := Split(ImagePath(s2, n2)[|Folder|..], '.');
    assert parts1 == parts2;
    assert NatString(s1) == parts1[0] && NatString(s2) == parts2[0];
    assert Extension(n1) == parts1[1] && Extension(n2) == parts2[1];
  }

  /** The request `uploadImage` sends: the derived path, the file's type, and no overwrite. */
  function UploadRequest(file: ImageFile, stamp: nat): (u: Upload)
    ensures u.path == ImagePath(stamp, file.name)
    ensures u.contentType == file.mime
    ensures !u.upsert
  {
    Upload(ImagePath(stamp, file.name), file.mime, false)
  }

  /**
   * The bucket's answer to an upload: `fault` is a failure of its own;
   * otherwise an existing object at the path is refused with `conflict`
   * unless the request may overwrite.
   */
  function Put(objects: set<string>, u: Upload, fault: Option<string>, conflict: string): (r: (set<string>, Option<string>))
    ensures r.1.Some? ==> r.0 == objects
    ensures r.1.None? <==> fault.None? && (u.path !in objects || u.upsert)
    ensures r.1.None? ==> r.0 == objects + {u.path}
  {
    if fault.Some? then (objects, fault)
    else if u.path in objects && !u.upsert then (objects, Some(conflict))
    else (objects + {u.path}, None)
  }

  /**
   * `uploadImage`. `stamp` is `Date.now()`; `publicUrl` is what the bucket
   * reports for the path. Errors are thrown messages.
   */
  function UploadImage(objects: set<string>, file: ImageFile, stamp: nat, fault: Option<string>,
                       conflict: string, publicUrl: Option<string>): (r: (set<string>, Result<string, string>))
    ensures var path := ImagePath(stamp, file.name);
            && (path in objects ==> r.0 == objects && r.1.Err?)
            && (r.1.Ok? ==> path !in objects && r.0 == objects + {path} && r.1.value != "")
            && (r.0 != objects ==> r.0 == objects + {path})
    ensures fault.Some? ==> r == (objects, Err(Or(fault.value, UploadFailed)))
    ensures r.1.Ok? <==> fault.None? && ImagePath(stamp, file.name) !in objects && Present(publicUrl)
    ensures fault.None? && ImagePath(stamp, file.name) !in objects && !Present(publicUrl) ==>
              r.1 == Err(UrlFailed)
    ensures r.1.Err? ==> r.1.error != ""
  {
    var u := UploadRequest(file, stamp);
    var (stored, error) := Put(objects, u, fault, conflict);
    match error
    case Some(m) => (stored, Err(Or(m, UploadFailed)))
    case None =>
      if !Present(publicUrl) then (stored, Err(UrlFailed)) else (stored, Ok(publicUrl.value))
  }
}

=== FILE: store.dfy ===
/**
 * The hosted relational store as the site's code uses it: one table per
 * entity, a row per store-assigned id, single-call replies that either
 * succeed, fail with the store's own message, or succeed without returning
 * rows, and listings that are either unordered or ordered by `created_at`.
 */
module Store {
  import opened Wrappers

  /** Store-assigned row identifiers. */
  type Id = int

  /** Store-assigned timestamps, ordered as the ISO strings the store returns. */
  type Timestamp = int

  /** The store's reply to an insert or update followed by `.select()`. */
  datatype Reply =
    | Done                      // the write happened and the row came back
    | Failed(message: string)   // the store refused; nothing was written
    | NoRows                    // the write happened but no row came back

  /** A table after one operation, and what the operation returned or threw. */
  datatype Step<T, R> = Step(rows: map<Id, T>, result: Result<R, string>)

  /** Every row of `b` other than the one at `id` is the same row in `a`, and back. */
  predicate OthersUnchanged<T(==)>(a: map<Id, T>, b: map<Id, T>, id: Id) {
    && (forall k :: k in a && k != id ==> k in b && b[k] == a[k])
    && (forall k :: k in b && k != id ==> k in a)
  }

  /** A value of a table sits under some key. */
  lemma ValueHasKey<T>(t: map<Id, T>, v: T)
    requires v in t.Values
    ensures exists k :: k in t && t[k] == v
  {
    assert (exists k :: k in t && t[k] == v) || v !in t.Values;
  }

  /** `m` is no larger than any key in `ks`. */
  predicate IsLeast(m: Id, ks: set<Id>) {
    forall k :: k in ks ==> m <= k
  }

  lemma EmptyOrHasElement(ks: set<Id>)
    ensures ks == {} || exists x :: x in ks
  {
    if !(exists x :: x in ks) {
      assert forall x :: x !in ks;
      assert ks == {};
    }
  }

  lemma {:induction false} LeastExists(ks: set<Id>)
    requires ks != {}
    ensures exists m :: m in ks && IsLeast(m, ks)
    decreases ks
  {
    EmptyOrHasElement(ks);
    var x :| x in ks;
    var rest := ks - {x};
    if rest == {} {
      assert ks == rest + {x};
      assert IsLeast(x, ks);
    } else {
      LeastExists(rest);
      var m :| m in rest && IsLeast(m, rest);
      var least := if x < m then x else m;
      assert forall k :: k in ks ==> k == x || k in rest;
      assert least in ks && IsLeast(least, ks);
    }
  }

  /** `r` lists the keys `ks` once each, in ascending order. */
  predicate Enumerates(r: seq<Id>, ks: set<Id>) {
    && |r| == |ks|
    && (forall i :: 0 <= i < |r| ==> r[i] in ks)
    && (forall k :: k in ks ==> k in r)
    && (forall i, j :: 0 <= i < j < |r| ==> r[i] < r[j])
  }

  lemma EnumeratesCons(m: Id, rest: seq<Id>, ks: set<Id>)
    requires m in ks && IsLeast(m, ks)
    requires Enumerates(rest, ks - {m})
    ensures Enumerates([m] + rest, ks)
  {
    assert |ks - {m}| == |ks| - 1;
    var r := [m] + rest;
    assert forall i :: 1 <= i < |r| ==> r[i] == rest[i - 1];
    assert forall k :: k in ks ==> k == m || k in rest;
  }

  /** The keys of a table in ascending order. */
  function SortedKeys(ks: set<Id>): (r: seq<Id>)
    ensures Enumerates(r, ks)
    decreases ks
  {
    if ks == {} then []
    else
      LeastExists(ks);
      var m :| m in ks && IsLeast(m, ks);
      var rest := SortedKeys(ks - {m});
      EnumeratesCons(m, rest, ks);
      [m] + rest
  }

  /** Every row of a table exactly once, in ascending id order. */
  function Values<T(==)>(t: map<Id, T>): (r: seq<T>)
    ensures |r| == |t|
    ensures forall i :: 0 <= i < |r| ==> r[i] in t.Values
    ensures forall k :: k in t ==> t[k] in r
  {
    var ks := SortedKeys(t.Keys);
    var r := seq(|ks|, i requires 0 <= i < |ks| => t[ks[i]]);
    ValuesCover(t, ks, r);
    r
  }

  lemma ValuesCover<T>(t: map<Id, T>, ks: seq<Id>, r: seq<T>)
    requires Enumerates(ks, t.Keys)
    requires |r| == |ks| && forall i :: 0 <= i < |ks| ==> r[i] == t[ks[i]]
    ensures forall k :: k in t ==> t[k] in r
  {
    forall k | k in t
      ensures t[k] in r
    {
      var i :| 0 <= i < |ks| && ks[i] == k;
      assert r[i] == t[k];
    }
  }

  /** Newest first: the order of `.order('created_at', { ascending: false })`. */
  predicate NewestFirst<T>(xs: seq<T>, created: T -> Timestamp) {
    forall i, j :: 0 <= i < j < |xs| ==> created(xs[i]) >= created(xs[j])
  }

  /** No row of `xs` is newer than `bound`. */
  predicate NoneNewer<T>(xs: seq<T>, bound: Timestamp, created: T -> Timestamp) {
    forall i :: 0 <= i < |xs| ==> created(xs[i]) <= bound
  }

  lemma NoneNewerPermutation<T>(ys: seq<T>, zs: seq<T>, x: T, bound: Timestamp, created: T -> Timestamp)
    requires multiset(ys) == multiset(zs) + multiset{x}
    requires NoneNewer(zs, bound, created) && created(x) <= bound
    ensures NoneNewer(ys, bound, created)
  {
    forall i | 0 <= i < |ys|
      ensures created(ys[i]) <= bound
    {
      assert ys[i] in multiset(ys);
      if ys[i] != x {
        assert ys[i] in multiset(zs);
        var j :| 0 <= j < |zs| && zs[j] == ys[i];
      }
    }
  }

  lemma NewestFirstCons<T>(h: T, xs: seq<T>, created: T -> Timestamp)
    requires NewestFirst(xs, created) && NoneNewer(xs, created(h), created)
    ensures NewestFirst([h] + xs, created)
  {
    var r := [h] + xs;
    assert forall i :: 1 <= i < |r| ==> r[i] == xs[i - 1];
  }

  /** Places `x` into a newest-first list. */
  function InsertNewestFirst<T>(x: T, xs: seq<T>, created: T -> Timestamp): (r: seq<T>)
    requires NewestFirst(xs, created)
    ensures NewestFirst(r, created)
    ensures multiset(r) == multiset(xs) + multiset{x}
  {
    if |xs| == 0 then [x]
    else if created(x) >= created(xs[0]) then
      assert NoneNewer(xs, created(x), created);
      NewestFirstCons(x, xs, created);
      [x] + xs
    else
      var tail := InsertNewestFirst(x, xs[1..], created);
      assert xs == [xs[0]] + xs[1..];
      assert NoneNewer(xs[1..], created(xs[0]), created);
      NoneNewerPermutation(tail, xs[1..], x, created(xs[0]), created);
      NewestFirstCons(xs[0], tail, created);
      [xs[0]] + tail
  }

  /** The rows of a listing reordered newest first. */
  function SortNewestFirst<T>(xs: seq<T>, created: T -> Timestamp): (r: seq<T>)
    ensures NewestFirst(r, created)
    ensures multiset(r) == multiset(xs)
  {
    if |xs| == 0 then []
    else
      assert xs == [xs[0]] + xs[1..];
      InsertNewestFirst(xs[0], SortNewestFirst(xs[1..], created), created)
  }

  /** Every row of a table exactly once, newest first. */
  function ListNewestFirst<T(==)>(t: map<Id, T>, created: T -> Timestamp): (r: seq<T>)
    ensures NewestFirst(r, created)
    ensures |r| == |t|
    ensures forall i :: 0 <= i < |r| ==> r[i] in t.Values
    ensures forall k :: k in t ==> t[k] in r
  {
    var all := Values(t);
    var r := SortNewestFirst(all, created);
    SameElements(r, all);
    r
  }

  lemma SameElements<T>(r: seq<T>, all: seq<T>)
    requires multiset(r) == multiset(all)
    ensures |r| == |all|
    ensures forall i :: 0 <= i < |r| ==> r[i] in all
    ensures forall i :: 0 <= i < |all| ==> all[i] in r
  {
    assert |r| == |multiset(r)| == |multiset(all)| == |all|;
    forall i | 0 <= i < |r| ensures r[i] in all {
      assert r[i] in multiset(all);
    }
    forall i | 0 <= i < |all| ensures all[i] in r {
      assert all[i] in multiset(r);
    }
  }
}

=== FILE: testimonial_action.dfy ===
/**
 * The testimonial server actions over the `testimonials` table:
 * `addTestimonial`, `deleteTestimonial`, `updateTestimonial` and the
 * newest-first `getTestimonials`.
 */
module TestimonialAction {
  import opened Wrappers
  import opened Js
  import opened Store

  /** A row of the `testimonials` table. */
  datatype Testimonial = Testimonial(
    id: Id,
    name: string,
    content: string,
    rating: Option<int>,
    grade: Option<string>,
    subjects: Option<string>,
    author: string,
    createdAt: Timestamp)

  /** The five form entries the admin panel always sends. */
  datatype FormData = FormData(name: string, content: string, rating: string, grade: string, subjects: string)

  const AuthRequired := "Authentication required"
  const NameAndContentRequired := "Name and content are required"
  const AddFailed := "Failed to add testimonial"
  const NoRowAfterInsert := "No data returned after insert"
  const NotFound := "Testimonial not found"
  const NotAuthor := "Unauthorized to delete this testimonial"
  const DeleteFailed := "Failed to delete testimonial"
  const UpdateFailed := "Failed to update testimonial"
  const NoRowAfterUpdate := "No data returned after update"
  const FetchFailed := "Failed to fetch testimonials"

  function CreatedAt(t: Testimonial): Timestamp {
    t.createdAt
  }

  /** The `rating` entry as extracted: `Number(rating)` when the entry is non-empty. */
  function FormRating(text: string): (n: Option<Num>)
    ensures n.None? <==> text == ""
  {
    if text != "" then Some(Number(text)) else None
  }

  /** `rating || null` on the extracted number: NaN and 0 are falsy. */
  function RatingOrNull(n: Option<Num>): (r: Option<int>)
    ensures r.Some? <==> n.Some? && n.value.Int? && n.value.value != 0
    ensures r.Some? ==> r.value == n.value.value
  {
    match n
    case Some(Int(v)) => if v != 0 then Some(v) else None
    case _ => None
  }

  /** The row `addTestimonial` inserts. */
  function NewTestimonial(id: Id, f: FormData, author: string, now: Timestamp): (t: Testimonial)
    ensures t.id == id && t.author == author && t.createdAt == now
    ensures t.name == f.name && t.content == f.content
    ensures t.rating == RatingOrNull(FormRating(f.rating))
    ensures t.grade.None? <==> f.grade == ""
    ensures t.subjects.None? <==> f.subjects == ""
    ensures t.grade.Some? ==> t.grade.value == f.grade
    ensures t.subjects.Some? ==> t.subjects.value == f.subjects
  {
    Testimonial(id, f.name, f.content, RatingOrNull(FormRating(f.rating)),
                OrNull(Some(f.grade)), OrNull(Some(f.subjects)), author, now)
  }

  /** A decimal rating other than 0 is stored; "0" is stored as null. */
  lemma StoredRatingOfDecimal(id: Id, f: FormData, author: string, now: Timestamp, v: int)
    requires f.rating == IntString(v)
    ensures NewTestimonial(id, f, author, now).rating == (if v == 0 then None else Some(v))
  {
    NumberOfIntString(v);
  }

  /**
   * `addTestimonial`. `id` and `now` are what the store would assign;
   * `reply` is its answer to the insert.
   */
  function AddTestimonial(rows: map<Id, Testimonial>, f: FormData, caller: Option<string>,
                          id: Id, now: Timestamp, reply: Reply): (r: Step<Testimonial, Testimonial>)
    requires id !in rows
    ensures !Present(caller) ==> r == Step(rows, Err(AuthRequired))
    ensures Present(caller) && (f.name == "" || f.content == "") ==> r == Step(rows, Err(NameAndContentRequired))
    ensures r.result.Ok? <==> Present(caller) && f.name != "" && f.content != "" && reply.Done?
    ensures r.result.Ok? ==> r.result.value == NewTestimonial(id, f, caller.value, now)
    ensures r.rows == rows || (r.rows == rows[id := NewTestimonial(id, f, caller.value, now)] && !reply.Failed?)
    ensures r.rows != rows ==> r.result.Ok? || r.result == Err(NoRowAfterInsert)
    ensures Present(caller) && f.name != "" && f.content != "" && !reply.Failed? ==>
              r.rows == rows[id := NewTestimonial(id, f, caller.value, now)]
    ensures r.result.Ok? ==> r.rows == rows[id := NewTestimonial(id, f, caller.value, now)]
    ensures Present(caller) && f.name != "" && f.content != "" && reply.NoRows? ==>
              r.result == Err(NoRowAfterInsert)
    ensures Present(caller) && f.name != "" && f.content != "" && reply.Failed? ==>
              r == Step(rows, Err(Or(reply.message, AddFailed)))
  {
    if !Present(caller) then Step(rows, Err(AuthRequired))
    else if f.name == "" || f.content == "" then Step(rows, Err(NameAndContentRequired))
    else
      var row := NewTestimonial(id, f, caller.value, now);
      match reply
      case Failed(m) => Step(rows, Err(Or(m, AddFailed)))
      case NoRows => Step(rows[id := row], Err(NoRowAfterInsert))
      case Done => Step(rows[id := row], Ok(row))
  }

  /**
   * `deleteTestimonial`: the caller, then that the row exists, then that
   * the caller wrote it, in that order. `lookup` is the error of the
   * existence query, which the code reads as "not found"; `fault` is the
   * error of the delete itself.
   */
  function DeleteTestimonial(rows: map<Id, Testimonial>, id: Id, caller: Option<string>,
                             lookup: Option<string>, fault: Option<string>): (r: Step<Testimonial, bool>)
    ensures r.result.Err? ==> r.rows == rows
    ensures !Present(caller) ==> r.result == Err(AuthRequired)
    ensures Present(caller) && (id !in rows || lookup.Some?) ==> r.result == Err(NotFound)
    ensures Present(caller) && id in rows && lookup.None? && rows[id].author != caller.value ==>
              r.result == Err(NotAuthor)
    ensures Present(caller) && id in rows && lookup.None? && rows[id].author == caller.value && fault.Some? ==>
              r.result == Err(Or(fault.value, DeleteFailed))
    ensures r.result.Ok? <==>
              Present(caller) && id in rows && lookup.None? && rows[id].author == caller.value && fault.None?
    ensures r.result.Ok? ==> r.result.value && r.rows.Keys == rows.Keys - {id}
    ensures OthersUnchanged(rows, r.rows, id)
  {
    if !Present(caller) then Step(rows, Err(AuthRequired))
    else if id !in rows || lookup.Some? then Step(rows, Err(NotFound))
    else if rows[id].author != caller.value then Step(rows, Err(NotAuthor))
    else match fault
      case Some(m) => Step(rows, Err(Or(m, DeleteFailed)))
      case None => Step(map k | k in rows && k != id :: rows[k], Ok(true))
  }

  /**
   * The update's payload applied to a row: name and content always,
   * rating, grade and subjects only when their entry is non-empty (an
   * empty entry is undefined and dropped). A rating that is not a number
   * becomes null on the way to the store.
   */
  function Patch(t: Testimonial, f: FormData): (u: Testimonial)
    ensures u.id == t.id && u.author == t.author && u.createdAt == t.createdAt
    ensures u.name == f.name && u.content == f.content
    ensures f.rating == "" ==> u.rating == t.rating
    ensures f.grade == "" ==> u.grade == t.grade
    ensures f.subjects == "" ==> u.subjects == t.subjects
    ensures f.grade != "" ==> u.grade == Some(f.grade)
    ensures f.subjects != "" ==> u.subjects == Some(f.subjects)
    ensures f.rating != "" ==> (u.rating.Some? <==> Number(f.rating).Int?)
    ensures f.rating != "" && Number(f.rating).Int? ==> u.rating == Some(Number(f.rating).value)
  {
    t.(name := f.name, content := f.content,
       rating := if f.rating != "" then (match Number(f.rating) case Int(v) => Some(v) case NaN => None) else t.rating,
       grade := if f.grade != "" then Some(f.grade) else t.grade,
       subjects := if f.subjects != "" then Some(f.subjects) else t.subjects)
  }

  /** Applying the same update twice is the same as applying it once. */
  lemma PatchIdempotent(t: Testimonial, f: FormData)
    ensures Patch(Patch(t, f), f) == Patch(t, f)
  {
  }

  /** Unlike creation, an update stores a rating of "0" as 0. */
  lemma PatchKeepsZeroRating(t: Testimonial, f: FormData)
    requires f.rating == "0"
    ensures Patch(t, f).rating == Some(0)
  {
    NumberOfIntString(0);
  }

  /**
   * `updateTestimonial`: only a caller is required; there is no existence
   * or ownership check, and no name or content validation. An id that
   * matches no row updates nothing and returns no rows.
   */
  function UpdateTestimonial(rows: map<Id, Testimonial>, id: Id, f: FormData, caller: Option<string>,
                             reply: Reply): (r: Step<Testimonial, Testimonial>)
    ensures !Present(caller) ==> r == Step(rows, Err(AuthRequired))
    ensures Present(caller) && reply.Failed? ==> r == Step(rows, Err(Or(reply.message, UpdateFailed)))
    ensures Present(caller) && !reply.Failed? && id !in rows ==> r == Step(rows, Err(NoRowAfterUpdate))
    ensures r.result.Ok? <==> Present(caller) && reply.Done? && id in rows
    ensures r.rows != rows ==> id in rows && r.rows == rows[id := Patch(rows[id], f)]
    ensures r.result.Ok? ==> r.rows[id] == r.result.value
    ensures r.rows.Keys == rows.Keys
    ensures r.result.Ok? ==> r.rows == rows[id := Patch(rows[id], f)]
    ensures Present(caller) && !reply.Failed? && id in rows ==> r.rows == rows[id := Patch(rows[id], f)]
    ensures Present(caller) && reply.NoRows? && id in rows ==> r.result == Err(NoRowAfterUpdate)
  {
    if !Present(caller) then Step(rows, Err(AuthRequired))
    else match reply
      case Failed(m) => Step(rows, Err(Or(m, UpdateFailed)))
      case _ =>
        if id !in rows then Step(rows, Err(NoRowAfterUpdate))
        else
          var u := Patch(rows[id], f);
          if reply.NoRows? then Step(rows[id := u], Err(NoRowAfterUpdate))
          else Step(rows[id := u], Ok(u))
  }

  /** Any signed-in caller may update any row: who wrote it does not matter. */
  lemma UpdateIgnoresAuthor(rows: map<Id, Testimonial>, id: Id, f: FormData, a: string, b: string, reply: Reply)
    requires a != "" && b != ""
    ensures UpdateTestimonial(rows, id, f, Some(a), reply) == UpdateTestimonial(rows, id, f, Some(b), reply)
  {
  }

  /** `getTestimonials`: every row, newest first, or the thrown message. */
  function GetTestimonials(rows: map<Id, Testimonial>, fault: Option<string>): (r: Result<seq<Testimonial>, string>)
    ensures fault.Some? ==> r == Err(Or(fault.value, FetchFailed)) && r.error != ""
    ensures fault.None? ==> r.Ok? && NewestFirst(r.value, CreatedAt) && |r.value| == |rows|
    ensures fault.None? ==> forall i :: 0 <= i < |r.value| ==> r.value[i] in rows.Values
    ensures fault.None? ==> forall k :: k in rows ==> rows[k] in r.value
  {
    match fault
    case Some(m) => Err(Or(m, FetchFailed))
    case None => Ok(ListNewestFirst(rows, CreatedAt))
  }
}

=== FILE: testimonial_route.dfy ===
/**
 * The `/api/testimonials` route: the status code and body of `POST`,
 * which inserts a testimonial from a JSON body, and of `GET`, which lists
 * them through `getTestimonials`.
 */
module TestimonialRoute {
  import opened Wrappers
  import opened Js
  import opened Store
  import opened TestimonialAction

  /** The JSON request body's fields, absent when missing or null. */
  datatype Body = Body(
    name: Option<string>,
    content: Option<string>,
    rating: Option<int>,
    grade: Option<string>,
    subjects: Option<string>)

  /** The JSON a response carries. */
  datatype Payload =
    | ErrorBody(error: string)
    | MessageBody(message: string)
    | RowBody(row: Testimonial)
    | ListBody(rows: seq<Testimonial>)

  datatype Response = Response(status: int, payload: Payload)

  const NameAndContentRequiredFields := "Name and content are required fields"
  const DatabaseFailed := "Database operation failed"
  const NoRowFromInsert := "No data returned from insert operation"

  /** `rating || null` on the JSON number. */
  function RatingOrNullJson(rating: Option<int>): (r: Option<int>)
    ensures r.Some? <==> rating.Some? && rating.value != 0
    ensures r.Some? ==> r == rating
  {
    if rating.Some? && rating.value != 0 then rating else None
  }

  /** The row the route inserts: falsy optional fields become null, the caller is the author. */
  function RouteRow(id: Id, b: Body, author: string, now: Timestamp): (t: Testimonial)
    requires Present(b.name) && Present(b.content)
    ensures t.id == id && t.author == author && t.createdAt == now
    ensures t.name == b.name.value && t.content == b.content.value
    ensures t.rating == RatingOrNullJson(b.rating)
    ensures t.grade == OrNull(b.grade) && t.subjects == OrNull(b.subjects)
  {
    Testimonial(id, b.name.value, b.content.value, RatingOrNullJson(b.rating),
                OrNull(b.grade), OrNull(b.subjects), author, now)
  }

  /**
   * `POST`. `body` is the parsed JSON object, or the message of the error
   * thrown while reading it: a parse failure, or the TypeError of reading
   * `name` from a `null` body;
   * `id` and `now` are what the store would assign and `reply` its answer
   * to the insert. The table after the call comes with the response.
   */
  function Post(rows: map<Id, Testimonial>, caller: Option<string>, body: Result<Body, string>,
                id: Id, now: Timestamp, reply: Reply): (r: (map<Id, Testimonial>, Response))
    requires id !in rows
    ensures !Present(caller) ==> r == (rows, Response(401, ErrorBody(AuthRequired)))
    ensures Present(caller) && body.Err? ==> r == (rows, Response(500, ErrorBody(body.error)))
    ensures Present(caller) && body.Ok? && !(Present(body.value.name) && Present(body.value.content)) ==>
              r == (rows, Response(400, ErrorBody(NameAndContentRequiredFields)))
    ensures r.1.status == 201 <==>
              Present(caller) && body.Ok? && Present(body.value.name) && Present(body.value.content) && reply.Done?
    ensures r.1.status == 201 ==> r.1.payload == RowBody(RouteRow(id, body.value, caller.value, now))
    ensures r.1.status in {201, 400, 401, 500}
    ensures r.0 != rows ==> !reply.Failed? && r.0 == rows[id := RouteRow(id, body.value, caller.value, now)]
    ensures r.1.status == 201 ==> r.0 == rows[id := RouteRow(id, body.value, caller.value, now)]
    ensures Present(caller) && body.Ok? && Present(body.value.name) && Present(body.value.content) ==>
              (reply.Failed? ==> r == (rows, Response(500, ErrorBody(Or(reply.message, DatabaseFailed)))))
              && (!reply.Failed? ==> r.0 == rows[id := RouteRow(id, body.value, caller.value, now)])
              && (reply.NoRows? ==> r.1 == Response(500, ErrorBody(NoRowFromInsert)))
  {
    if !Present(caller) then (rows, Response(401, ErrorBody(AuthRequired)))
    else match body
      case Err(m) => (rows, Response(500, ErrorBody(m)))
      case Ok(b) =>
        if !Present(b.name) || !Present(b.content) then
          (rows, Response(400, ErrorBody(NameAndContentRequiredFields)))
        else
          var row := RouteRow(id, b, caller.value, now);
          match reply
          case Failed(m) => (rows, Response(500, ErrorBody(Or(m, DatabaseFailed))))
          case NoRows => (rows[id := row], Response(500, ErrorBody(NoRowFromInsert)))
          case Done => (rows[id := row], Response(201, RowBody(row)))
  }

  /** The signed-in check comes first: without a caller the body is never looked at. */
  lemma PostChecksCallerFirst(rows: map<Id, Testimonial>, b1: Result<Body, string>, b2: Result<Body, string>,
                              caller: Option<string>, id: Id, now: Timestamp, reply: Reply)
    requires id !in rows && !Present(caller)
    ensures Post(rows, caller, b1, id, now, reply) == Post(rows, caller, b2, id, now, reply)
  {
  }

  /**
   * The route and the server action store the same row for the same
   * fields, when the form's rating is the decimal text of the JSON rating.
   */
  lemma RouteAgreesWithAction(id: Id, f: FormData, b: Body, author: string, now: Timestamp, v: int)
    requires b == Body(Some(f.name), Some(f.content), Some(v), Some(f.grade), Some(f.subjects))
    requires f.name != "" && f.content != "" && f.rating == IntString(v)
    ensures RouteRow(id, b, author, now) == NewTestimonial(id, f, author, now)
  {
    StoredRatingOfDecimal(id, f, author, now, v);
  }

  /** `GET`: 200 with the newest-first list, or 500 with the thrown message. */
  function Get(rows: map<Id, Testimonial>, fault: Option<string>): (r: Response)
    ensures fault.Some? ==> r == Response(500, MessageBody(Or(fault.value, FetchFailed)))
    ensures fault.None? ==> r.status == 200 && r.payload.ListBody?
    ensures fault.None? ==> NewestFirst(r.payload.rows, CreatedAt) && |r.payload.rows| == |rows|
    ensures fault.None? ==> forall k :: k in rows ==> rows[k] in r.payload.rows
  {
    match GetTestimonials(rows, fault)
    case Err(m) => Response(500, MessageBody(m))
    case Ok(list) => Response(200, ListBody(list))
  }
}

=== FILE: testimonials_view.dfy ===
/**
 * The public testimonials section: the star rendering of a rating and
 * whether the rating block appears at all.
 */
module TestimonialsView {
  import opened Wrappers
  import opened Js
  import opened TestimonialAction

  const FullStar := '\U{2605}'
  const EmptyStar := '\U{2606}'

  /** What `renderRating` produces: nothing, a star string, or a RangeError from `repeat`. */
  datatype Rendered = Nothing | Stars(text: string) | RangeError

  /**
   * `renderRating`: a falsy rating renders nothing; otherwise `rating` full
   * stars then `5 - rating` empty ones, and `repeat` throws when either
   * count is negative.
   */
  function RenderRating(rating: Option<int>): (r: Rendered)
    ensures r == Nothing <==> rating.None? || rating.value == 0
    ensures r == RangeError <==> rating.Some? && (rating.value < 0 || rating.value > 5)
    ensures r.Stars? ==> 1 <= rating.value <= 5 && |r.text| == 5
    ensures r.Stars? ==> forall i :: 0 <= i < 5 ==> (r.text[i] == FullStar <==> i < rating.value)
    ensures r.Stars? ==> forall i :: 0 <= i < 5 ==> (r.text[i] == EmptyStar <==> i >= rating.value)
  {
    match rating
    case None => Nothing
    case Some(n) =>
      if n == 0 then Nothing
      else if n < 0 || 5 - n < 0 then RangeError
      else Stars(Repeat(FullStar, n) + Repeat(EmptyStar, 5 - n))
  }

  /** The number of full stars in a rendering is the rating. */
  function CountFull(s: string): (n: nat)
    ensures n <= |s|
  {
    if |s| == 0 then 0 else (if s[0] == FullStar then 1 else 0) + CountFull(s[1..])
  }

  lemma {:induction false} CountFullRepeat(c: char, k: nat)
    ensures CountFull(Repeat(c, k)) == (if c == FullStar then k else 0)
  {
    if k > 0 {
      CountFullRepeat(c, k - 1);
      assert Repeat(c, k)[1..] == Repeat(c, k - 1);
    }
  }

  lemma {:induction false} CountFullAppend(a: string, b: string)
    ensures CountFull(a + b) == CountFull(a) + CountFull(b)
  {
    if |a| > 0 {
      CountFullAppend(a[1..], b);
      assert (a + b)[1..] == a[1..] + b;
    } else {
      assert a + b == b;
    }
  }

  /** For a rating from 1 to 5 the rendering shows exactly that many full stars. */
  lemma StarsCountRating(r: int)
    requires 1 <= r <= 5
    ensures RenderRating(Some(r)).Stars?
    ensures CountFull(RenderRating(Some(r)).text) == r
  {
    CountFullAppend(Repeat(FullStar, r), Repeat(EmptyStar, 5 - r));
    CountFullRepeat(FullStar, r);
    CountFullRepeat(EmptyStar, 5 - r);
  }

  /**
   * What the card shows above the quote: nothing, a bare text node, or the
   * star line.
   */
  datatype Block = NoBlock | TextNode(text: string) | StarLine(stars: Rendered)

  /**
   * `testimonial.rating && (<div>...</div>)` as written: a missing rating
   * renders nothing, but a rating of 0 is the value of the whole expression
   * and React renders that number as the text "0".
   */
  function RatingBlockAsWritten(rating: Option<int>): (b: Block)
    ensures b.NoBlock? <==> rating.None?
    ensures b.TextNode? <==> rating == Some(0)
    ensures b.StarLine? ==> b.stars == RenderRating(rating) && b.stars != Nothing
  {
    match rating
    case None => NoBlock
    case Some(n) => if n == 0 then TextNode(IntString(0)) else StarLine(RenderRating(rating))
  }

  /** Saving an edit with rating "0" stores 0, and the card then shows a stray "0". */
  lemma ZeroRatingShowsStrayDigit(t: Testimonial, f: FormData)
    requires f.rating == "0"
    ensures RatingBlockAsWritten(Patch(t, f).rating) == TextNode("0")
  {
    PatchKeepsZeroRating(t, f);
  }

  /** The evident intent: the rating block appears only for a truthy rating, and nothing shows otherwise. */
  function RatingBlock(rating: Option<int>): (b: Block)
    ensures !b.TextNode?
    ensures b.StarLine? <==> rating.Some? && rating.value != 0
    ensures b.StarLine? ==> b.stars == RenderRating(rating) && b.stars != Nothing
  {
    if rating.Some? && rating.value != 0 then StarLine(RenderRating(rating)) else NoBlock
  }

  /** The corrected block differs from the written one only at rating 0. */
  lemma RatingBlockDiffersOnlyAtZero(rating: Option<int>)
    ensures rating != Some(0) ==> RatingBlock(rating) == RatingBlockAsWritten(rating)
    ensures RatingBlock(Some(0)) == NoBlock
  {
  }
}

=== FILE: wrappers.dfy ===
/** Failure-compatible wrappers used by every module of the model. */
module Wrappers {

  /** A value that may be missing: JavaScript's `undefined`/`null`. */
  datatype Option<+T> = None | Some(value: T) {

    /** The wrapped value, or `default` when there is none. */
    function GetOr(default: T): T {
      match this
      case Some(v) => v
      case None => default
    }
  }

  /** The outcome of an operation that may throw or return an error value. */
  datatype Result<+T, +E> = Ok(value: T) | Err(error: E)
}
